=== FILE: README.md ===
# TaskBoard request logic in Dafny

TaskBoard is an Express and MongoDB web application. Users register, log in
and keep tasks. Each task has a title, details, status, priority, category and
an optional deadline, plus `createdAt` and `updatedAt`. An admin can see and
edit every task. This project models the logic that decides what each request
does, with the plumbing stripped away:

- **Validation** (`validateTaskInput` in server.js): trims and normalises the
  six task fields. Title, details, status and deadline are checked strictly,
  and each failure adds an error message. Priority and category are lenient:
  a bad value falls back to a default.
- **Title filter and sort** of the list endpoints. `escapeRegex` plus the
  anchors `^…$` with the option `i` select the tasks whose title equals the
  query, ignoring case. The `sort` query parameter becomes a one-key sort
  object.
- **Gates** (middleware/requireAuth.js, and the copy of `requireAuth` in
  server.js): 401 without a logged-in session, 403 for a non-admin on admin
  routes.
- **Three task APIs**, each modelled as written:
  - the unscoped `/api/tasks` of server.js, which validates its input;
  - the owner-scoped router of routes/tasks.js, which stores the body as sent;
  - the admin router of routes/admin.js.
- **Accounts**: register, login, logout and `/me` of routes/auth.js, the
  stricter login of server.js, and the start-up admin seed `ensureAdminUser`.

The tasks collection is a finite map from id to task document (`TaskStore`).
The users collection is a sequence in insertion order (`Accounts`), so
`findOne` returns the first match. Each handler is a pure function, or a
method for the list queries. It takes the session, the store and the request.
A task handler returns the response with the new task store
(`ServerApi.Outcome`); an account handler returns the response with the new
users and the new session (`Accounts.Outcome`).

Several things are parameters rather than part of the model:

| in the code | here |
|---|---|
| `ObjectId.isValid(id)` followed by `new ObjectId(id)` | `parseId: string -> Option<Id>` |
| `new Date(text)` | `parseDate: string -> Option<Instant>`. A parsed date carries its timestamp and its local calendar day. |
| the current local day | `today: Day` |
| the clock | `now: int` |
| the id the driver generates for an insert | `newId` |
| `bcrypt.hash` | `hash: string -> string` |
| `bcrypt.compare` | `verify: (string, string) -> bool` |

Behaviour of the code that a reader might not expect, modelled as written:

- There is no pagination. Without `sort` the list imposes no order.
- Any logged-in user may update or delete any task through server.js. Only
  the owner may through routes/tasks.js.
- server.js stores tasks without a `userId`.
- server.js requires a session for create, update and delete, but not for
  listing or reading a task.
- PCRE's `$` also matches just before a final newline. So the title filter
  also selects a title equal to the query followed by one `"\n"`. The model
  states the match exactly that way (`Query.Selected`).
- routes/tasks.js stores `new Date(text)` for any truthy deadline text. The
  BSON serializer writes an Invalid Date as timestamp 0, so an unparsable
  deadline is stored as 0 (`TaskRoutes.RawDeadline`).

## Model

| member | source | states |
|---|---|---|
| `Text.SkipSpaces` | server.js:156 | the scan `trim()` starts with: from the given index it passes only white space and stops at the first other character or at the end |
| `Text.SkipSpacesBack` | server.js:156 | the scan `trim()` ends with: from the end back towards the start of the text it passes only white space and stops just after a character that is not white space, or at the start |
| `Text.TrimIsSlice` | server.js:156-157 | `trim()` leaves the slice of the input that starts after the leading white space, with only white space before and after it |
| `Text.Trim` | server.js:156 | the trimmed text neither starts nor ends with white space |
| `Text.Lower` | server.js:159 | `toLowerCase()` keeps the length, turns each upper-case letter into its lower-case counterpart, keeps every other character, and leaves no upper-case letter |
| `Text.RemoveSpaces` | server.js:160 | `replace(/\s+/g, '')` leaves no white space and only characters of the input |
| `Text.RemoveSpacesConcat` | server.js:160 | removing white space distributes over concatenation |
| `Text.RemoveSpacesAllSpace` | server.js:160 | removing white space from text that is nothing but white space leaves nothing |
| `Text.RemoveSpacesOfTrim` | server.js:159-160 | trimming before removing all white space makes no difference |
| `Text.LowerConcat` | server.js:159 | lower-casing distributes over concatenation |
| `Text.LowerIdempotent` | routes/auth.js:11 | lower-casing twice is lower-casing once |
| `Text.RemoveSpacesLower` | server.js:159-160 | lower-casing and removing white space commute |
| `Pattern.EscapeRegex` | server.js:145-147 | the escaped query has exactly one extra character per metacharacter; a query with no metacharacters is unchanged |
| `Pattern.EscapeRegexParses` | server.js:145-147 | dropping the inserted backslashes recovers the query: the escaped text, read as a pattern, denotes exactly the query |
| `Pattern.EscapeRegexConcat` | server.js:146 | the replacement is global and per character: escaping distributes over concatenation |
| `Pattern.EscapeRegexAppendChar` | server.js:146 | appending a character appends its escape: a backslash and the character for each of the fourteen regex metacharacters, the character alone otherwise |
| `Pattern.TitlePatternIsLiteral` | routes/tasks.js:25 | `^escaped$` is an anchored literal pattern for exactly the query |
| `Pattern.TitlePatternMatches` | server.js:269-271 | a title matches the built pattern exactly when it equals the query ignoring case, or equals it followed by one newline |
| `Pattern.TitlePatternMatchesExactly` | server.js:269-271 | a title without a trailing newline matches exactly when it equals the query ignoring case |
| `Query.FilterSelects` | routes/tasks.js:22-26 | the filter matches a task exactly when the task belongs to the owner (if one is named) and, if the title query is non-empty, its title equals the query ignoring case |
| `Query.ParseSort` | server.js:273-276 | `-f` sorts by `f` descending, any other non-empty `f` sorts by `f` ascending, and an absent or empty parameter imposes no order |
| `Query.FormatParseSort` | server.js:273-276 | the sort parameter is recovered from the sort object it produces |
| `Query.ParseFormatSort` | server.js:273-276 | every one-key sort object (ascending field not starting with `-`) is produced by its own query-string form |
| `Query.StrLeqTotal` | server.js:278 | the store's string order is total, so any two tasks can be ordered |
| `Query.Insert` | server.js:278 | inserting into a sorted list keeps it sorted, adds one entry, and keeps the entries distinct |
| `Query.SortEntries` | server.js:278 | `sort()` returns the same entries, ordered by the field in the requested direction |
| `Query.InsertPermutes` | server.js:278 | placing one entry into a sorted list adds exactly one occurrence of it and keeps every other entry |
| `Query.SortEntriesPermutes` | server.js:278 | sorting is a permutation: every entry keeps its number of occurrences |
| `Query.Find` | server.js:278 | `find(filter).sort(...)` returns every matching stored task exactly once with its stored content, nothing else, in the requested order |
| `Query.NewestFirst` | routes/admin.js:16 | in a list sorted by `createdAt` descending, every task is at least as new as every task after it |
| `Validation.NormalizeStatus` | server.js:159-160 | the cleaned status is the input's non-white-space characters in order, lower-cased (a missing status counts as "todo"); it holds no white space and no upper-case letter |
| `Validation.NormalizePriority` | server.js:175 | the cleaned priority is always low, medium or high; an allowed value (after trimming and lower-casing) is kept, and any other becomes "medium" |
| `Validation.NormalizeCategory` | server.js:176 | the cleaned category has 2 to 40 characters; it is the trimmed input when that fits, otherwise "general" |
| `Validation.CheckDeadline` | server.js:179-199 | an empty deadline is no deadline; an unparsable one gives "deadline must be a valid date"; a day before today gives "deadline cannot be in the past"; otherwise the parsed date is kept |
| `Validation.CollectErrors` | server.js:170-199 | each failed check adds its own message, none cuts the others short, only the five messages of the checks occur, there are at most four, no message twice, and none exactly when all checks pass |
| `Validation.CollectErrorsInOrder` | server.js:170-199 | the messages come in the order of the checks: title, details, status, deadline |
| `Validation.ValidateErrorsInOrder` | server.js:170-199 | the error list of the 400 response is in the order title, details, status, deadline |
| `Validation.ValidateTaskInput` | server.js:153-206 | `ok` exactly when there are no errors; title and details are trimmed and in error exactly outside 2..100 and 2..500; status is normalised and in error exactly outside todo/inprogress/done; only the five messages of the checks occur, at most four, none twice |
| `Validation.ValidateLenientFields` | server.js:162-176 | priority and category never change the errors; the cleaned priority is always allowed (the given one when allowed, "medium" otherwise); the cleaned category has 2 to 40 characters (the given one when it fits, "general" otherwise) |
| `Validation.ValidateDeadline` | server.js:179-199 | no deadline gives null and no error; an unparsable one gives exactly the invalid-date error; a day before today gives exactly the past-deadline error; otherwise the parsed date is kept |
| `Validation.StatusInProgress` | server.js:159-160 | "In Progress" is accepted as the status "inprogress" |
| `Validation.TitleBounds` | server.js:170 | a two-character title passes; one- and 101-character titles fail |
| `Validation.DeadlineToday` | server.js:188-197 | a deadline whose parsed local day is today is accepted; one whose parsed local day is earlier is rejected as past |
| `Validation.StatusStable` | server.js:159-160 | a normalised status normalises to itself |
| `Validation.PriorityStable` | server.js:162 | a normalised priority normalises to itself |
| `Validation.CategoryStable` | server.js:163 | a normalised category normalises to itself |
| `Validation.ValidateDependsOnNormalForms` | server.js:156-165 | two bodies with the same normal forms validate identically |
| `Validation.RevalidateIsStable` | server.js:153-206 | resubmitting the cleaned text fields with the same deadline text gives back the same cleaned record and the same errors |
| `Gates.RequireAuth` | middleware/requireAuth.js:1-4 | passes exactly the sessions with a non-empty `userId`; otherwise stops with 401 "unauthorized" |
| `Gates.RequireAdmin` | middleware/requireAuth.js:6-9 | passes exactly the sessions whose role is "admin"; otherwise stops with 403 "forbidden" |
| `Gates.AdminGate` | routes/admin.js:13 | with the gates chained: unauthenticated is 401 whatever the role, authenticated non-admin is 403, only an authenticated admin passes |
| `TaskStore.UpdateOne` | routes/tasks.js:72-87 | the update applies exactly when the scoped task exists; only that task changes, its owner and `createdAt` are kept, the patched fields and `updatedAt` are set; otherwise the store is unchanged |
| `TaskStore.DeleteOne` | routes/tasks.js:102-107 | the delete applies exactly when the scoped task exists and removes that id alone; otherwise the store is unchanged |
| `TaskStore.InsertOne` | routes/tasks.js:46-56 | the insert succeeds exactly when the id is unused, and then adds that one task and keeps every other |
| `ServerApi.List` | server.js:265-283 | 200 with exactly the tasks whose title equals the query (ignoring case), each once, in the requested order |
| `ServerApi.GetById` | server.js:286-297 | the id is trimmed; malformed gives 400, unknown gives 404, otherwise 200 with that task |
| `ServerApi.NewTask` | server.js:307-316 | a created task has the cleaned fields, no owner, and `createdAt == updatedAt == now` |
| `ServerApi.Create` | server.js:300-322 | 401 without a session; 400 with all validation errors; 201 exactly when valid and the id is free, and then exactly the new task is added; otherwise the store is unchanged |
| `ServerApi.Update` | server.js:325-353 | 401, then 400 for a malformed id, then 400 with the validation errors, all leaving the store unchanged; then, whoever owns the task, 200 exactly when a valid request names an id in the store and 404 exactly when it names a missing one |
| `ServerApi.UpdateChangesOnlyTarget` | server.js:333-347 | a successful update sets the cleaned fields and `updatedAt` of the named task, whoever owns it, keeps its owner and `createdAt`, and leaves every other task alone |
| `ServerApi.Delete` | server.js:356-367 | 401, then 400 for a malformed id; then, whoever owns the task, 200 exactly when the id is in the store and 404 exactly when it is missing; success removes exactly that task |
| `TaskRoutes.List` | routes/tasks.js:17-38 | 401 without a session; otherwise exactly the caller's tasks whose title equals the query ignoring case, each once, in the requested order |
| `TaskRoutes.RawDeadline` | routes/tasks.js:53 | an absent or empty deadline is stored as null, a parsed one as its timestamp, and an unparsable one (an Invalid Date) as timestamp 0 |
| `TaskRoutes.NewTask` | routes/tasks.js:46-56 | a created task belongs to the caller, keeps title and details as sent, defaults empty or absent status, priority and category to todo, medium and general, and has `createdAt == updatedAt` |
| `TaskRoutes.Create` | routes/tasks.js:41-62 | 401 without a session; otherwise 201 exactly when the id is free, adding exactly the caller's new task; the store is unchanged otherwise |
| `TaskRoutes.Update` | routes/tasks.js:65-92 | 401, then 400 for a malformed id, before the store is read; 200 exactly when the caller owns a task with that id; otherwise 404 and the store unchanged |
| `TaskRoutes.UpdateChangesOnlyTarget` | routes/tasks.js:72-85 | a successful update overwrites only the body fields and `updatedAt`; owner and `createdAt` stay; every other task is untouched |
| `TaskRoutes.Delete` | routes/tasks.js:95-112 | 401, then 400 for a malformed id; success exactly when the caller owns the task, and then removes that task alone; otherwise 404 and the store unchanged |
| `TaskRoutes.ForeignTaskLooksMissing` | routes/tasks.js:72-107 | another user's task gives the same 404 as a missing id, for both update and delete, and the store stays as it was |
| `AdminRoutes.List` | routes/admin.js:13-21 | behind both gates: every task of every user exactly once, each at least as new as every task after it |
| `AdminRoutes.Update` | routes/admin.js:24-51 | behind both gates; 400 for a malformed id; 200 exactly when the id exists, whoever owns it; 404 otherwise; the store is unchanged on every failure |
| `AdminRoutes.UpdateChangesOnlyTarget` | routes/admin.js:31-46 | a successful admin update keeps the owner and `createdAt`, refreshes `updatedAt`, sets the body fields, and leaves other tasks alone |
| `AdminRoutes.Delete` | routes/admin.js:54-67 | behind both gates; 400 for a malformed id; 404 exactly when the id is absent; success removes exactly that task |
| `AdminRoutes.AdminReachesForeignTasks` | routes/admin.js:60-62 | a task the owner-scoped router answers 404 for, because it belongs to someone else, is deleted by the admin router |
| `Accounts.IndexOfEmail` | routes/auth.js:18 | the position found is the first user with the email, or past the end when there is none |
| `Accounts.FindByEmail` | routes/auth.js:18 | `findOne({email})` finds nothing exactly when no user has the email, and otherwise the first stored user with that email |
| `Accounts.FindUnique` | routes/auth.js:44 | when emails are unique, the user found is the one with that email |
| `Accounts.FindAfterAppend` | routes/auth.js:21-26 | a user inserted under an unused email is found by that email afterwards |
| `Accounts.AppendKeepsUnique` | routes/auth.js:18-26 | inserting a user with an unused email and an unused id keeps emails and ids unique |
| `Accounts.NormalizeEmail` | routes/auth.js:11 | the normalised email is the sent one (absent counts as empty) trimmed, equal to it ignoring case, with no upper-case letters |
| `Accounts.NormalizeEmailIdempotent` | routes/auth.js:11 | normalising a normalised email changes nothing |
| `Accounts.Register` | routes/auth.js:7-35 | 400 for an empty email or a password shorter than 6; 409 when the email exists; both leave users and session unchanged; otherwise exactly one user with role "user" and the sent email trimmed and lower-cased is added, and the session is set to its id and role "user" |
| `Accounts.RegisterKeepsUnique` | routes/auth.js:18-26 | registration keeps emails and ids unique |
| `Accounts.LoginSession` | routes/auth.js:50-51 | a login session carries the user's id, and its role or "user" when the role is absent or empty |
| `Accounts.Login` | routes/auth.js:37-57 | 200 exactly when a user has the email and the password verifies, setting the session from that user; otherwise 401 with users and session unchanged |
| `Accounts.ServerLogin` | server.js:218-244 | an empty email or password is refused with 400 before the store is read; otherwise it behaves like the router's login |
| `Accounts.RegisterThenLogin` | routes/auth.js:7-57 | a user who has just registered can log in with the same credentials and gets the same session |
| `Accounts.Logout` | routes/auth.js:59-64 | after logout the session has no user and no role, and `requireAuth` refuses it |
| `Accounts.Me` | routes/auth.js:66-71 | reports as authenticated exactly the sessions `requireAuth` lets through, with the role when it is non-empty and null otherwise |
| `Accounts.MeAfterLogout` | routes/auth.js:59-71 | after logout `/me` reports nobody |
| `Accounts.EnsureAdminUser` | server.js:48-73 | with an empty configured email or password, or an email already registered, the users stay as they are; otherwise exactly one admin is appended; the insert fails only on a taken id |
| `Accounts.SeedSkipsKnown` | server.js:57-61 | the seed does nothing when the configured email is already registered |
| `Accounts.SeedFindsAdmin` | server.js:57-70 | after the seed has run with a configured email and password, a user with that email exists |
| `Accounts.SeedIdempotent` | server.js:48-73 | running the seed twice is the same as running it once |
| `Accounts.SeedKeepsUnique` | server.js:57-70 | the seed keeps emails and ids unique |
| `Accounts.SeededAdminPassesGates` | server.js:63-70 | the admin a fresh seed creates can log in with the configured credentials, and the session passes both admin gates |

## Left out

- Express routing, body parsing, static pages, the request logger,
  `/api/info`, the 410 compatibility routes, the 404 fallback and the
  `/auth/me` alias. The alias answers like `Accounts.Me`. This is framework
  plumbing. server.js does not mount the routers in routes/; both are
  modelled as written.
- MongoDB connection, collection creation and index creation (db.js, which is
  not part of this model, and server.js:34-103). The unique email index of db.js
  appears only as the invariant `Accounts.UniqueEmails`. The registration
  lemmas show the invariant is preserved.
- Store and session failures: each handler's `catch` answers 500, and so does
  the session `save` error of the server.js login. Only an id collision on insert is
  modelled as a failure. The `save`/`destroy` callbacks and cookies are not
  modelled.
- bcrypt (foreign cryptography) and `Date` parsing with local-time arithmetic.
  Both are parameters. `new Date(y, m, d)` maps years 0 to 99 to 1900 to 1999;
  this cannot change the past-deadline verdict for any current `today`.
- Validation.DeadlineToday: the local calendar day of a parsed date is taken as
  `parseDate` reports it. `new Date("YYYY-MM-DD")` reads a date-only text as
  UTC midnight, so west of UTC its local day is the day before, and today's
  date sent in that form is rejected as past (server.js:181-194). The model
  does not derive local days from timestamps, so it cannot show this.
- Lengths count characters, not JavaScript's UTF-16 code units. Characters
  outside the Basic Multilingual Plane therefore count once here and twice in
  the code.
- Lower-casing and the regex option `i` are modelled for ASCII letters only.
  Unicode case folding is not part of the model.
- Request bodies and query parameters are strings or absent. Numbers, arrays
  and objects (`toString()` conversions, and the 500 that `sort.startsWith`
  throws on an array) are not modelled.
- Query.ParseSort: `sort=-`, or a field path MongoDB refuses (empty, `$`-prefixed),
  makes the store reject the query with 500. The model instead sorts by a field
  the tasks do not have.
- Query.Find: the order of ties, and the order without a sort object, are left
  to the store. The contract says nothing about them.
- Concurrency between requests: the lookup-then-insert of register and of the
  seed is assumed atomic.
- Pagination: no file of the code implements it.

=== FILE: accounts.dfy ===
/**
  Accounts and sessions: the users collection, registration and login of
  routes/auth.js, the stricter login of server.js, logout, `/me`, and the
  admin seed `ensureAdminUser` that runs once at start-up.

  The users collection is a sequence in natural order, so `findOne({email})`
  is the first user with that email. `bcrypt.hash` is the parameter `hash`
  and `bcrypt.compare` the parameter `verify`; the id the driver generates is
  `newId` and the clock `now`.
 */
module Accounts {
  import opened Types
  import opened Text
  import opened Gates

  datatype User = User(id: Id, email: string, passwordHash: string, role: Option<string>, createdAt: int)

  type Users = seq<User>

  /** The `email` and `password` fields of a request body. */
  datatype Credentials = Credentials(email: Option<string>, password: Option<string>)

  /** A response together with the users collection and the session afterwards. */
  datatype Outcome = Outcome(resp: Response, users: Users, session: Session)

  const InvalidInput := Response(400, Error("invalid input"))
  const UserExists := Response(409, Error("user exists"))
  const ServerError := Response(500, Error("server error"))
  const InvalidCredentials := Response(401, Error("invalid credentials"))

  /** No two users share an email. */
  predicate UniqueEmails(users: Users) {
    forall i, j :: 0 <= i < j < |users| ==> users[i].email != users[j].email
  }

  /** No two users share an id. */
  predicate UniqueIds(users: Users) {
    forall i, j :: 0 <= i < j < |users| ==> users[i].id != users[j].id
  }

  predicate HasId(users: Users, id: Id) {
    exists i :: 0 <= i < |users| && users[i].id == id
  }

  /** The position of the first user with `email`, or `|users|` when there is none. */
  function IndexOfEmail(users: Users, email: string): (i: nat)
    ensures i <= |users|
    ensures forall j :: 0 <= j < i ==> users[j].email != email
    ensures i < |users| ==> users[i].email == email
  {
    if users == [] then 0
    else if users[0].email == email then 0
    else 1 + IndexOfEmail(users[1..], email)
  }

  /** `findOne({email})`: the first user with that email, and none exactly when no user has it. */
  function FindByEmail(users: Users, email: string): (r: Option<User>)
    ensures r.None? <==> forall j :: 0 <= j < |users| ==> users[j].email != email
    ensures r.Some? ==> r.value in users && r.value.email == email
    ensures r.Some? ==> forall j :: 0 <= j < |users| && users[j].email == email ==> r.value in users[..j + 1]
  {
    var i := IndexOfEmail(users, email);
    if i < |users| then Some(users[i]) else None
  }

  /** Among users with distinct emails, the one found is the only one with that email. */
  lemma FindUnique(users: Users, email: string, k: int)
    requires UniqueEmails(users) && 0 <= k < |users| && users[k].email == email
    ensures FindByEmail(users, email) == Some(users[k])
  {
    var i := IndexOfEmail(users, email);
    assert i <= k;
    assert users[i].email == users[k].email;
    assert i == k;
  }

  /** A user appended after the existing ones is found by its email when no earlier user has it. */
  lemma FindAfterAppend(users: Users, u: User)
    requires FindByEmail(users, u.email).None?
    ensures FindByEmail(users + [u], u.email) == Some(u)
  {
    var s := users + [u];
    assert forall j :: 0 <= j < |users| ==> s[j] == users[j];
    var i := IndexOfEmail(s, u.email);
    assert s[|users|].email == u.email;
    assert i == |users|;
  }

  /** Appending a user with an unused email under an unused id keeps both unique. */
  lemma AppendKeepsUnique(users: Users, u: User)
    requires UniqueEmails(users) && UniqueIds(users)
    requires FindByEmail(users, u.email).None? && !HasId(users, u.id)
    ensures UniqueEmails(users + [u]) && UniqueIds(users + [u])
  {
    var s := users + [u];
    assert forall j :: 0 <= j < |users| ==> s[j] == users[j];
    assert s[|users|] == u;
  }

  /** The email as every route normalises it: absent to empty, trimmed, lower-cased. */
  function NormalizeEmail(raw: Option<string>): (e: string)
    ensures Trimmed(e)
    ensures forall k :: 0 <= k < |e| ==> !IsUpper(e[k])
    ensures EqualsIgnoreCase(e, Trim(OrElse(raw, "")))
  {
    LowerKeepsSpaces(Trim(OrElse(raw, "")));
    LowerIdempotent(Trim(OrElse(raw, "")));
    Lower(Trim(OrElse(raw, "")))
  }

  /** Normalising a normalised email changes nothing, so a stored email finds itself. */
  lemma NormalizeEmailIdempotent(raw: Option<string>)
    ensures NormalizeEmail(Some(NormalizeEmail(raw))) == NormalizeEmail(raw)
  {
    var e := NormalizeEmail(raw);
    if e != "" {
      TrimOfTrimmed(e);
      LowerOfLower(e);
    }
  }

  /**
    `POST /api/auth/register` of routes/auth.js: 400 for an empty email or a
    password shorter than six characters, 409 when the email is taken; otherwise
    one new user with role "user" and the hashed password is appended, and the
    session logs it in (500, nothing changed, if the generated id is taken).
   */
  function Register(users: Users, session: Session, body: Credentials, hash: string -> string,
                    newId: Id, now: int): (r: Outcome)
    ensures var email, password := NormalizeEmail(body.email), OrElse(body.password, "");
            (email == "" || |password| < 6) ==> r == Outcome(InvalidInput, users, session)
    ensures var email, password := NormalizeEmail(body.email), OrElse(body.password, "");
            email != "" && |password| >= 6 && FindByEmail(users, email).Some?
            ==> r == Outcome(UserExists, users, session)
    ensures r.resp.status == 201 <==>
              && NormalizeEmail(body.email) != "" && |OrElse(body.password, "")| >= 6
              && FindByEmail(users, NormalizeEmail(body.email)).None? && !HasId(users, newId)
    ensures r.resp.status != 201 ==> r.users == users && r.session == session
    ensures r.resp.status == 201 ==>
              && r.resp.body == Message("registered")
              && r.users == users + [User(newId, NormalizeEmail(body.email), hash(OrElse(body.password, "")), Some("user"), now)]
              && r.session == Session(Some(newId), Some("user"))
  {
    var email, password := NormalizeEmail(body.email), OrElse(body.password, "");
    if email == "" || |password| < 6 then Outcome(InvalidInput, users, session)
    else if FindByEmail(users, email).Some? then Outcome(UserExists, users, session)
    else if HasId(users, newId) then Outcome(ServerError, users, session)
    else
      Outcome(Response(201, Message("registered")), users + [User(newId, email, hash(password), Some("user"), now)],
              Session(Some(newId), Some("user")))
  }

  /** Registration keeps emails and ids unique: it appends only an unused email under an unused id. */
  lemma RegisterKeepsUnique(users: Users, session: Session, body: Credentials, hash: string -> string,
                            newId: Id, now: int)
    requires UniqueEmails(users) && UniqueIds(users)
    ensures var r := Register(users, session, body, hash, newId, now);
            UniqueEmails(r.users) && UniqueIds(r.users)
  {
    var r := Register(users, session, body, hash, newId, now);
    if r.resp.status == 201 {
      AppendKeepsUnique(users, User(newId, NormalizeEmail(body.email), hash(OrElse(body.password, "")), Some("user"), now));
    }
  }

  /**
    The session a successful login establishes for `user`: its id, and its role
    defaulting to "user".
   */
  function LoginSession(user: User): (s: Session)
    ensures s.userId == Some(user.id)
    ensures s.role == Some(if Truthy(user.role) then user.role.value else "user")
  {
    Session(Some(user.id), Some(OrElse(user.role, "user")))
  }

  /**
    `POST /api/auth/login` of routes/auth.js: 401 when no user has the email or
    the password does not match its hash (the same answer for both, leaving the
    session as it was); otherwise the session is set from that user and 200.
   */
  function Login(users: Users, session: Session, body: Credentials, verify: (string, string) -> bool): (r: Outcome)
    ensures r.users == users
    ensures var user := FindByEmail(users, NormalizeEmail(body.email));
            r.resp.status == 200 <==> user.Some? && verify(OrElse(body.password, ""), user.value.passwordHash)
    ensures r.resp.status != 200 ==> r == Outcome(InvalidCredentials, users, session)
    ensures r.resp.status == 200 ==>
              && r.resp.body == Message("ok")
              && r.session == LoginSession(FindByEmail(users, NormalizeEmail(body.email)).value)
  {
    var email, password := NormalizeEmail(body.email), OrElse(body.password, "");
    match FindByEmail(users, email)
    case None => Outcome(InvalidCredentials, users, session)
    case Some(user) =>
      if !verify(password, user.passwordHash) then Outcome(InvalidCredentials, users, session)
      else Outcome(Response(200, Message("ok")), users, LoginSession(user))
  }

  /**
    `POST /api/auth/login` of server.js: as above, except that an empty email
    or an empty password is refused with 400 before the store is read.
   */
  function ServerLogin(users: Users, session: Session, body: Credentials, verify: (string, string) -> bool): (r: Outcome)
    ensures NormalizeEmail(body.email) == "" || Coalesce(body.password, "") == ""
            ==> r == Outcome(Response(400, Error("invalid credentials")), users, session)
    ensures NormalizeEmail(body.email) != "" && Coalesce(body.password, "") != ""
            ==> r == Login(users, session, body, verify)
  {
    var email, password := NormalizeEmail(body.email), Coalesce(body.password, "");
    if email == "" || password == "" then Outcome(Response(400, Error("invalid credentials")), users, session)
    else Login(users, session, body, verify)
  }

  /** A user who has just registered can log in with the same email and password, and gets the same session. */
  lemma RegisterThenLogin(users: Users, session: Session, body: Credentials, hash: string -> string,
                          verify: (string, string) -> bool, newId: Id, now: int, later: Session)
    requires forall p :: verify(p, hash(p))
    requires Register(users, session, body, hash, newId, now).resp.status == 201
    ensures var r := Register(users, session, body, hash, newId, now);
            var l := Login(r.users, later, body, verify);
            l.resp.status == 200 && l.session == r.session
  {
    var r := Register(users, session, body, hash, newId, now);
    var u := User(newId, NormalizeEmail(body.email), hash(OrElse(body.password, "")), Some("user"), now);
    FindAfterAppend(users, u);
  }

  /** `POST /api/auth/logout`: the session is destroyed, so nothing behind `requireAuth` is reachable any more. */
  function Logout(users: Users, session: Session): (r: Outcome)
    ensures r.resp == Response(200, Message("logged out")) && r.users == users
    ensures !Authenticated(r.session) && r.session.role.None?
    ensures RequireAuth(r.session) == Stop(Unauthorized)
  {
    Outcome(Response(200, Message("logged out")), users, NoSession)
  }

  /**
    `GET /api/auth/me`: reports as authenticated exactly the sessions
    `requireAuth` lets through, and the role when it is non-empty.
   */
  function Me(session: Session): (resp: Response)
    ensures resp.status == 200 && resp.body.Identity?
    ensures resp.body.authenticated <==> RequireAuth(session).Next?
    ensures resp.body.role == (if Truthy(session.role) then session.role else None)
  {
    Response(200, Identity(Authenticated(session), if Truthy(session.role) then session.role else None))
  }

  /** After logout `/me` reports nobody, whatever the session was. */
  lemma MeAfterLogout(users: Users, session: Session)
    ensures Me(Logout(users, session).session).body == Identity(false, None)
  {
  }

  /**
    `ensureAdminUser`: with a non-empty configured email and password, and no
    user holding that email yet, one admin user is appended; otherwise the
    users stay as they are. `None` is a failed insert, on which start-up exits.
   */
  function EnsureAdminUser(users: Users, adminEmail: Option<string>, adminPassword: Option<string>,
                           hash: string -> string, newId: Id, now: int): (r: Option<Users>)
    ensures var email, password := NormalizeEmail(adminEmail), OrElse(adminPassword, "");
            (email == "" || password == "" || FindByEmail(users, email).Some?) ==> r == Some(users)
    ensures r.None? <==>
              && NormalizeEmail(adminEmail) != "" && OrElse(adminPassword, "") != ""
              && FindByEmail(users, NormalizeEmail(adminEmail)).None? && HasId(users, newId)
    ensures var email, password := NormalizeEmail(adminEmail), OrElse(adminPassword, "");
            email != "" && password != "" && FindByEmail(users, email).None? && !HasId(users, newId)
            ==> r == Some(users + [User(newId, email, hash(password), Some("admin"), now)])
  {
    var email, password := NormalizeEmail(adminEmail), OrElse(adminPassword, "");
    if email == "" || password == "" then Some(users)
    else if FindByEmail(users, email).Some? then Some(users)
    else if HasId(users, newId) then None
    else Some(users + [User(newId, email, hash(password), Some("admin"), now)])
  }

  /** The seed leaves the users alone when the configured email is already registered. */
  lemma SeedSkipsKnown(users: Users, adminEmail: Option<string>, adminPassword: Option<string>,
                       hash: string -> string, newId: Id, now: int)
    requires FindByEmail(users, NormalizeEmail(adminEmail)).Some?
    ensures EnsureAdminUser(users, adminEmail, adminPassword, hash, newId, now) == Some(users)
  {
  }

  /** Seeding twice is seeding once: the second run finds the admin the first created. */
  lemma SeedIdempotent(users: Users, adminEmail: Option<string>, adminPassword: Option<string>,
                       hash: string -> string, newId: Id, now: int, newId2: Id, now2: int)
    requires EnsureAdminUser(users, adminEmail, adminPassword, hash, newId, now).Some?
    ensures var once := EnsureAdminUser(users, adminEmail, adminPassword, hash, newId, now).value;
            EnsureAdminUser(once, adminEmail, adminPassword, hash, newId2, now2) == Some(once)
  {
    var once := EnsureAdminUser(users, adminEmail, adminPassword, hash, newId, now).value;
    if NormalizeEmail(adminEmail) != "" && OrElse(adminPassword, "") != "" {
      SeedFindsAdmin(users, adminEmail, adminPassword, hash, newId, now);
      SeedSkipsKnown(once, adminEmail, adminPassword, hash, newId2, now2);
    }
  }

  /** Once the seed has run with a configured email, a user with that email exists. */
  lemma SeedFindsAdmin(users: Users, adminEmail: Option<string>, adminPassword: Option<string>,
                       hash: string -> string, newId: Id, now: int)
    requires NormalizeEmail(adminEmail) != "" && OrElse(adminPassword, "") != ""
    requires EnsureAdminUser(users, adminEmail, adminPassword, hash, newId, now).Some?
    ensures var once := EnsureAdminUser(users, adminEmail, adminPassword, hash, newId, now).value;
            FindByEmail(once, NormalizeEmail(adminEmail)).Some?
  {
    var email, password := NormalizeEmail(adminEmail), OrElse(adminPassword, "");
    if FindByEmail(users, email).None? {
      var u := User(newId, email, hash(password), Some("admin"), now);
      assert !HasId(users, newId);
      assert EnsureAdminUser(users, adminEmail, adminPassword, hash, newId, now) == Some(users + [u]);
      FindAfterAppend(users, u);
    } else {
      SeedSkipsKnown(users, adminEmail, adminPassword, hash, newId, now);
    }
  }

  /** The seed keeps emails and ids unique. */
  lemma SeedKeepsUnique(users: Users, adminEmail: Option<string>, adminPassword: Option<string>,
                        hash: string -> string, newId: Id, now: int)
    requires UniqueEmails(users) && UniqueIds(users)
    requires EnsureAdminUser(users, adminEmail, adminPassword, hash, newId, now).Some?
    ensures var s := EnsureAdminUser(users, adminEmail, adminPassword, hash, newId, now).value;
            UniqueEmails(s) && UniqueIds(s)
  {
    var s := EnsureAdminUser(users, adminEmail, adminPassword, hash, newId, now).value;
    if s != users {
      assert !HasId(users, newId) && FindByEmail(users, NormalizeEmail(adminEmail)).None?;
      AppendKeepsUnique(users, User(newId, NormalizeEmail(adminEmail), hash(OrElse(adminPassword, "")), Some("admin"), now));
    }
  }

  /**
    The admin a fresh seed creates can log in with the configured credentials
    (in any case and with surrounding spaces in the email), and the session it
    gets passes both admin gates.
   */
  lemma SeededAdminPassesGates(users: Users, adminEmail: Option<string>, adminPassword: Option<string>,
                               hash: string -> string, verify: (string, string) -> bool,
                               newId: Id, now: int, session: Session)
    requires forall p :: verify(p, hash(p))
    requires newId != ""
    requires FindByEmail(users, NormalizeEmail(adminEmail)).None?
    requires EnsureAdminUser(users, adminEmail, adminPassword, hash, newId, now).Some?
    ensures var s := EnsureAdminUser(users, adminEmail, adminPassword, hash, newId, now).value;
            var l := Login(s, session, Credentials(adminEmail, adminPassword), verify);
            NormalizeEmail(adminEmail) != "" && OrElse(adminPassword, "") != ""
            ==> l.resp.status == 200 && l.session == Session(Some(newId), Some("admin")) && AdminGate(l.session).Next?
  {
    var email, password := NormalizeEmail(adminEmail), OrElse(adminPassword, "");
    if email != "" && password != "" {
      var u := User(newId, email, hash(password), Some("admin"), now);
      assert !HasId(users, newId);
      assert EnsureAdminUser(users, adminEmail, adminPassword, hash, newId, now) == Some(users + [u]);
      FindAfterAppend(users, u);
      assert verify(password, u.passwordHash);
      assert Login(users + [u], session, Credentials(adminEmail, adminPassword), verify).session == LoginSession(u);
    }
  }
}

=== FILE: admin_routes.dfy ===
/**
  The admin router of routes/admin.js. Every route sits behind the chain
  `requireAuth, requireAdmin`, and addresses tasks by id alone, whoever owns
  them. Updates store the request body as it comes, like routes/tasks.js.
 */
module AdminRoutes {
  import opened Types
  import opened Gates
  import opened TaskStore
  import opened Query
  import ServerApi
  import TaskRoutes

  /**
    `GET /admin/tasks`: 401 or 403 unless the caller is an admin; otherwise
    every task of every user exactly once, each newer than or as new as every
    task after it.
   */
  method List(session: Session, store: Store) returns (resp: Response)
    ensures AdminGate(session).Stop? ==> resp == AdminGate(session).resp
    ensures AdminGate(session).Next? ==> resp.status == 200 && resp.body.Tasks?
    ensures AdminGate(session).Next? ==>
              forall e :: e in resp.body.items <==> e.id in store && e.task == store[e.id]
    ensures AdminGate(session).Next? ==>
              forall i, j :: 0 <= i < j < |resp.body.items| ==> resp.body.items[i].id != resp.body.items[j].id
    ensures AdminGate(session).Next? ==>
              forall i, j :: 0 <= i < j < |resp.body.items| ==>
                resp.body.items[i].task.createdAt >= resp.body.items[j].task.createdAt
  {
    var g := AdminGate(session);
    if g.Stop? {
      return g.resp;
    }
    var items := Find(store, Filter(None, None), SortBy("createdAt", -1));
    forall i, j | 0 <= i < j < |items|
      ensures items[i].task.createdAt >= items[j].task.createdAt
    {
      NewestFirst(items, i, j);
    }
    resp := Response(200, Tasks(items));
  }

  /**
    `PUT /admin/tasks/:id`: the gate, then 400 for a malformed id, then an
    update of the task with that id whatever its owner; 404 with the store
    unchanged when there is none.
   */
  function Update(session: Session, store: Store, rawId: string, body: Body, parseId: string -> Option<Id>,
                  parseDate: string -> Option<Instant>, now: int): (r: ServerApi.Outcome)
    ensures AdminGate(session).Stop? ==> r == ServerApi.Outcome(AdminGate(session).resp, store)
    ensures AdminGate(session).Next? && parseId(rawId).None? ==> r == ServerApi.Outcome(InvalidId, store)
    ensures r.resp.status == 200 <==>
              AdminGate(session).Next? && parseId(rawId).Some? && parseId(rawId).value in store
    ensures AdminGate(session).Next? && parseId(rawId).Some? && parseId(rawId).value !in store
            ==> r == ServerApi.Outcome(TaskNotFound, store)
    ensures r.resp.status != 200 ==> r.store == store
  {
    match AdminGate(session)
    case Stop(resp) => ServerApi.Outcome(resp, store)
    case Next =>
      match parseId(rawId)
      case None => ServerApi.Outcome(InvalidId, store)
      case Some(id) =>
        var w := UpdateOne(store, Scope(id, None), TaskRoutes.RawPatch(body, parseDate), now);
        if w.applied then ServerApi.Outcome(Response(200, Message("updated by admin")), w.store)
        else ServerApi.Outcome(TaskNotFound, store)
  }

  /**
    A successful admin update rewrites the addressed task's fields from the
    body and its `updatedAt`, keeps its owner and `createdAt`, and leaves every
    other task alone.
   */
  lemma UpdateChangesOnlyTarget(session: Session, store: Store, rawId: string, body: Body,
                                parseId: string -> Option<Id>, parseDate: string -> Option<Instant>, now: int)
    ensures var r := Update(session, store, rawId, body, parseId, parseDate, now);
            r.resp.status == 200 ==>
              var id := parseId(rawId).value;
              && id in store && r.resp.body == Message("updated by admin")
              && r.store.Keys == store.Keys
              && (forall k :: k in store && k != id ==> r.store[k] == store[k])
              && r.store[id].userId == store[id].userId && r.store[id].createdAt == store[id].createdAt
              && r.store[id].updatedAt == now
              && r.store[id].title == body.title && r.store[id].details == body.details
              && r.store[id].status == body.status && r.store[id].priority == body.priority
              && r.store[id].category == body.category
              && r.store[id].deadline == TaskRoutes.RawDeadline(body.deadline, parseDate)
  {
  }

  /**
    `DELETE /admin/tasks/:id`: the gate, then 400 for a malformed id, then the
    task with that id is removed whatever its owner; 404 when there is none.
   */
  function Delete(session: Session, store: Store, rawId: string, parseId: string -> Option<Id>): (r: ServerApi.Outcome)
    ensures AdminGate(session).Stop? ==> r == ServerApi.Outcome(AdminGate(session).resp, store)
    ensures AdminGate(session).Next? && parseId(rawId).None? ==> r == ServerApi.Outcome(InvalidId, store)
    ensures r.resp.status == 200 <==>
              AdminGate(session).Next? && parseId(rawId).Some? && parseId(rawId).value in store
    ensures AdminGate(session).Next? && parseId(rawId).Some? && parseId(rawId).value !in store
            ==> r == ServerApi.Outcome(TaskNotFound, store)
    ensures r.resp.status != 200 ==> r.store == store
    ensures r.resp.status == 200 ==>
              && r.resp.body == Message("deleted by admin")
              && r.store.Keys == store.Keys - {parseId(rawId).value}
              && (forall k :: k in r.store ==> r.store[k] == store[k])
  {
    match AdminGate(session)
    case Stop(resp) => ServerApi.Outcome(resp, store)
    case Next =>
      match parseId(rawId)
      case None => ServerApi.Outcome(InvalidId, store)
      case Some(id) =>
        var w := DeleteOne(store, Scope(id, None));
        if w.applied then ServerApi.Outcome(Response(200, Message("deleted by admin")), w.store)
        else ServerApi.Outcome(TaskNotFound, store)
  }

  /**
    An admin reaches every task: where the owner-scoped router answers 404
    because the task belongs to someone else, the admin router deletes it.
   */
  lemma AdminReachesForeignTasks(user: Session, admin: Session, store: Store, rawId: string,
                                 parseId: string -> Option<Id>)
    requires Authenticated(user) && AdminGate(admin).Next?
    requires parseId(rawId).Some? && parseId(rawId).value in store
    requires store[parseId(rawId).value].userId != user.userId
    ensures TaskRoutes.Delete(user, store, rawId, parseId).resp == TaskNotFound
    ensures Delete(admin, store, rawId, parseId).resp.status == 200
  {
  }
}

=== FILE: gates.dfy ===
/**
  The access gates of middleware/requireAuth.js (server.js carries an
  identical `requireAuth`), as decision functions over the session record.
 */
module Gates {
  import opened Types

  /** What a middleware decides: call the next handler, or answer now. */
  datatype Gate = Next | Stop(resp: Response)

  /** The session belongs to a logged-in user: its `userId` is truthy. */
  predicate Authenticated(s: Session) {
    Truthy(s.userId)
  }

  const Unauthorized := Response(401, Error("unauthorized"))
  const Forbidden := Response(403, Error("forbidden"))

  /** `requireAuth`: passes exactly the authenticated sessions, and answers 401 otherwise. */
  function RequireAuth(s: Session): (g: Gate)
    ensures g.Next? <==> s.userId.Some? && s.userId.value != ""
    ensures g.Stop? ==> g.resp == Unauthorized
  {
    if Authenticated(s) then Next else Stop(Unauthorized)
  }

  /** `requireAdmin`: passes exactly the sessions whose role is "admin", and answers 403 otherwise. */
  function RequireAdmin(s: Session): (g: Gate)
    ensures g.Next? <==> s.role == Some("admin")
    ensures g.Stop? ==> g.resp == Forbidden
  {
    if s.role == Some("admin") then Next else Stop(Forbidden)
  }

  /**
    The chain `requireAuth, requireAdmin` of every admin route: an
    unauthenticated caller gets 401 whatever its role, an authenticated
    non-admin gets 403, and only an authenticated admin reaches the handler.
   */
  function AdminGate(s: Session): (g: Gate)
    ensures !Authenticated(s) ==> g == Stop(Unauthorized)
    ensures Authenticated(s) && s.role != Some("admin") ==> g == Stop(Forbidden)
    ensures g.Next? <==> Authenticated(s) && s.role == Some("admin")
  {
    match RequireAuth(s)
    case Stop(resp) => Stop(resp)
    case Next => RequireAdmin(s)
  }
}

=== FILE: pattern.dfy ===
/**
  The title filter of the list endpoints: `escapeRegex` turns a user query into
  a regular-expression source, and the store matches it anchored (`^…$`) with
  the case-insensitive option `i`.

  Only the fragment of the regular-expression language that escaped input can
  produce is given a meaning here: a sequence of literal characters, where a
  backslash followed by a non-alphanumeric character stands for that character.
  Any other pattern is outside the model (`None`).
 */
module Pattern {
  import opened Types
  import opened Text

  /** The characters `escapeRegex` escapes: `. * + ? ^ $ { } ( ) | [ ] \`. */
  predicate IsMeta(c: char) {
    c in ".*+?^${}()|[]\\"
  }

  predicate IsAlnum(c: char) {
    ('0' <= c <= '9') || ('a' <= c <= 'z') || ('A' <= c <= 'Z')
  }

  lemma MetaIsNotAlnum(c: char)
    ensures IsMeta(c) ==> !IsAlnum(c)
    ensures c == '\\' ==> IsMeta(c)
  {
  }

  /** How many characters of `s` get a backslash. */
  function MetaCount(s: string): nat {
    if s == [] then 0 else (if IsMeta(s[0]) then 1 else 0) + MetaCount(s[1..])
  }

  /**
    The literal text a pattern fragment denotes, or `None` when the fragment uses
    any regular-expression feature beyond escaped and plain literal characters.
   */
  function ParseLiteral(p: string): (r: Option<string>)
    ensures r.Some? ==> |r.value| <= |p|
  {
    if p == [] then Some([])
    else if p[0] == '\\' then
      if |p| >= 2 && !IsAlnum(p[1]) then
        match ParseLiteral(p[2..])
        case Some(rest) => Some([p[1]] + rest)
        case None => None
      else None
    else if IsMeta(p[0]) then None
    else
      match ParseLiteral(p[1..])
      case Some(rest) => Some([p[0]] + rest)
      case None => None
  }

  /** The replacement `\\$&` for one character: a backslash in front of a metacharacter, the character itself otherwise. */
  function EscapeChar(c: char): string {
    if IsMeta(c) then ['\\', c] else [c]
  }

  /**
    `escapeRegex`: every metacharacter gets one backslash in front of it, so the
    result has one extra character per metacharacter, and equals the input when
    there is nothing to escape.
   */
  function EscapeRegex(s: string): (r: string)
    ensures |r| == |s| + MetaCount(s)
    ensures MetaCount(s) == 0 ==> r == s
  {
    if s == [] then []
    else
      assert s == [s[0]] + s[1..];
      EscapeChar(s[0]) + EscapeRegex(s[1..])
  }

  /** Dropping the inserted backslashes recovers the input: the escaped text, read as a pattern, denotes exactly the input. */
  lemma {:induction false} EscapeRegexParses(s: string)
    ensures ParseLiteral(EscapeRegex(s)) == Some(s)
  {
    if s != [] {
      var c, rest := s[0], EscapeRegex(s[1..]);
      var r := EscapeChar(c) + rest;
      assert EscapeRegex(s) == r;
      EscapeRegexParses(s[1..]);
      MetaIsNotAlnum(c);
      if IsMeta(c) {
        assert r[0] == '\\' && r[1] == c && r[2..] == rest;
      } else {
        assert r[0] == c && r[0] != '\\' && r[1..] == rest;
      }
      assert s == [c] + s[1..];
    }
  }

  /** Escaping works character by character: it distributes over concatenation. */
  lemma {:induction false} EscapeRegexConcat(a: string, b: string)
    ensures EscapeRegex(a + b) == EscapeRegex(a) + EscapeRegex(b)
  {
    if a == [] {
      assert a + b == b;
    } else {
      var ab, t := a + b, a[1..];
      assert ab[0] == a[0] && ab[1..] == t + b;
      assert EscapeRegex(ab) == EscapeChar(a[0]) + EscapeRegex(t + b);
      EscapeRegexConcat(t, b);
      assert EscapeRegex(a) == EscapeChar(a[0]) + EscapeRegex(t);
    }
  }

  /**
    The global replacement in full: the escape of a string is the concatenation
    of its characters' escapes, so a backslash goes in front of each
    metacharacter and every other character is kept as it is.
   */
  lemma EscapeRegexAppendChar(s: string, c: char)
    ensures EscapeRegex(s + [c]) == EscapeRegex(s) + EscapeChar(c)
  {
    EscapeRegexConcat(s, [c]);
    assert [c][1..] == [];
  }

  /** The pattern source the list endpoints build from a title query. */
  function TitlePattern(query: string): string {
    "^" + EscapeRegex(query) + "$"
  }

  /** The literal text of an anchored literal pattern `^…$`, if it is one. */
  function AnchoredLiteral(p: string): Option<string> {
    if |p| >= 2 && p[0] == '^' && p[|p| - 1] == '$' then ParseLiteral(p[1..|p| - 1]) else None
  }

  /**
    Whether `text` matches pattern `p` under the option `i`. For an anchored
    literal the match is case-insensitive equality; PCRE's `$` also matches just
    before a final newline, so the text may carry one extra trailing newline.
   */
  function MatchesIgnoreCase(p: string, text: string): Option<bool> {
    match AnchoredLiteral(p)
    case Some(lit) => Some(EqualsIgnoreCase(text, lit) || EqualsIgnoreCase(text, lit + "\n"))
    case None => None
  }

  /** Escaping and anchoring a query yields an anchored literal for exactly that query. */
  lemma TitlePatternIsLiteral(query: string)
    ensures AnchoredLiteral(TitlePattern(query)) == Some(query)
  {
    var p := TitlePattern(query);
    assert p[1..|p| - 1] == EscapeRegex(query);
    EscapeRegexParses(query);
  }

  /**
    The title filter cannot be subverted by the query: a title matches it
    exactly when it equals the query ignoring case, allowing one trailing newline.
   */
  lemma TitlePatternMatches(query: string, title: string)
    ensures MatchesIgnoreCase(TitlePattern(query), title)
            == Some(EqualsIgnoreCase(title, query) || EqualsIgnoreCase(title, query + "\n"))
  {
    TitlePatternIsLiteral(query);
  }

  /** A title without a trailing newline matches exactly when it equals the query ignoring case. */
  lemma TitlePatternMatchesExactly(query: string, title: string)
    requires title == [] || title[|title| - 1] != '\n'
    ensures MatchesIgnoreCase(TitlePattern(query), title) == Some(EqualsIgnoreCase(title, query))
  {
    TitlePatternMatches(query, title);
  }
}

=== FILE: query.dfy ===
/**
  The read side of the task endpoints: the filter built from the session and
  the `title` query parameter, the one-key sort object built from the `sort`
  parameter, and `find(filter).sort(sortObj)` over the store.
 */
module Query {
  import opened Types
  import opened Text
  import opened Pattern
  import opened TaskStore

  /** A find filter: an optional `userId` equality and an optional case-insensitive title regex. */
  datatype Filter = Filter(owner: Option<string>, titlePattern: Option<string>)

  /**
    The filter of a list request: `{userId: owner}` when scoped, plus
    `title: {$regex: ^escaped$, $options: 'i'}` when the title parameter is truthy.
   */
  function BuildFilter(owner: Option<string>, title: Option<string>): Filter {
    Filter(owner, if Truthy(title) then Some(TitlePattern(title.value)) else None)
  }

  /** Whether the store selects document `t` for filter `f`; a `null` title matches no regex. */
  predicate Matches(t: Task, f: Filter) {
    && (f.owner.None? || t.userId == f.owner)
    && (f.titlePattern.None?
        || (t.title.Some? && MatchesIgnoreCase(f.titlePattern.value, t.title.value) == Some(true)))
  }

  /**
    The tasks a list request is meant to select, stated without patterns: those
    of the owner (when scoped) whose title equals the query ignoring case, up to
    the trailing newline PCRE's `$` tolerates.
   */
  predicate Selected(t: Task, owner: Option<string>, title: Option<string>) {
    && (owner.None? || t.userId == owner)
    && (!Truthy(title)
        || (t.title.Some?
            && (EqualsIgnoreCase(t.title.value, title.value)
                || EqualsIgnoreCase(t.title.value, title.value + "\n"))))
  }

  /** The built filter selects exactly the intended tasks: escaping leaves no way to widen the match. */
  lemma FilterSelects(t: Task, owner: Option<string>, title: Option<string>)
    ensures Matches(t, BuildFilter(owner, title)) <==> Selected(t, owner, title)
  {
    if Truthy(title) && t.title.Some? {
      TitlePatternMatches(title.value, t.title.value);
    }
  }

  /** The sort object: none, or one field with direction 1 (ascending) or -1 (descending). */
  datatype SortSpec = Unsorted | SortBy(field: string, dir: int)

  /**
    `sortObj` from the `sort` parameter: "-f" sorts by f descending, any other
    non-empty "f" by f ascending, and an absent or empty parameter imposes no order.
   */
  function ParseSort(sort: Option<string>): (r: SortSpec)
    ensures !Truthy(sort) ==> r == Unsorted
    ensures Truthy(sort) && sort.value[0] == '-' ==> r == SortBy(sort.value[1..], -1)
    ensures Truthy(sort) && sort.value[0] != '-' ==> r == SortBy(sort.value, 1)
  {
    if !Truthy(sort) then Unsorted
    else if sort.value[0] == '-' then SortBy(sort.value[1..], -1)
    else SortBy(sort.value, 1)
  }

  /** The query-string form of a sort object. */
  function FormatSort(s: SortSpec): string {
    match s
    case Unsorted => ""
    case SortBy(f, d) => if d == -1 then "-" + f else f
  }

  /** Every `sort` parameter is recovered from the sort object it produces. */
  lemma FormatParseSort(sort: Option<string>)
    ensures FormatSort(ParseSort(sort)) == Coalesce(sort, "")
  {
    if Truthy(sort) && sort.value[0] == '-' {
      assert sort.value == "-" + sort.value[1..];
    }
  }

  /**
    Every sort object with a valid direction whose ascending field does not
    itself start with '-' is produced by its own query-string form.
   */
  lemma ParseFormatSort(s: SortSpec)
    requires s.SortBy? && (s.dir == 1 || s.dir == -1)
    requires s.dir == 1 ==> s.field != "" && s.field[0] != '-'
    ensures ParseSort(Some(FormatSort(s))) == s
  {
    if s.dir == -1 {
      assert ("-" + s.field)[1..] == s.field;
    }
  }

  /** BSON values as the store compares them: `null` before strings before dates. */
  datatype SortValue = Null | Str(s: string) | Time(ms: int)

  function OptionalText(s: Option<string>): SortValue {
    if s.Some? then Str(s.value) else Null
  }

  /**
    The value of `field` in a returned task. Fields the document does not have
    are missing, which sorts like `null`. An id's hex rendering orders as the
    ObjectId's bytes do.
   */
  function ValueOf(e: Entry, field: string): SortValue {
    if field == "_id" then Str(e.id)
    else if field == "userId" then OptionalText(e.task.userId)
    else if field == "title" then OptionalText(e.task.title)
    else if field == "details" then OptionalText(e.task.details)
    else if field == "status" then OptionalText(e.task.status)
    else if field == "priority" then OptionalText(e.task.priority)
    else if field == "category" then OptionalText(e.task.category)
    else if field == "deadline" then (if e.task.deadline.Some? then Time(e.task.deadline.value) else Null)
    else if field == "createdAt" then Time(e.task.createdAt)
    else if field == "updatedAt" then Time(e.task.updatedAt)
    else Null
  }

  /** Binary string order: by code point, a proper prefix first. */
  predicate StrLeq(a: string, b: string) {
    a == [] || (b != [] && (a[0] < b[0] || (a[0] == b[0] && StrLeq(a[1..], b[1..]))))
  }

  lemma {:induction false} StrLeqTotal(a: string, b: string)
    ensures StrLeq(a, b) || StrLeq(b, a)
  {
    if a != [] && b != [] && a[0] == b[0] {
      StrLeqTotal(a[1..], b[1..]);
    }
  }

  predicate ValueLeq(a: SortValue, b: SortValue) {
    match (a, b)
    case (Null, _) => true
    case (Str(x), Str(y)) => StrLeq(x, y)
    case (Str(_), Time(_)) => true
    case (Time(x), Time(y)) => x <= y
    case _ => false
  }

  lemma ValueLeqTotal(a: SortValue, b: SortValue)
    ensures ValueLeq(a, b) || ValueLeq(b, a)
  {
    if a.Str? && b.Str? {
      StrLeqTotal(a.s, b.s);
    }
  }

  /** `a` may come before `b` when sorting by `field` in direction `dir`. */
  predicate Before(a: Entry, b: Entry, field: string, dir: int) {
    if dir < 0 then ValueLeq(ValueOf(b, field), ValueOf(a, field))
    else ValueLeq(ValueOf(a, field), ValueOf(b, field))
  }

  /** Each entry may come before its successor. */
  predicate Sorted(s: seq<Entry>, field: string, dir: int) {
    forall i :: 0 < i < |s| ==> Before(s[i - 1], s[i], field, dir)
  }

  predicate Distinct(s: seq<Entry>) {
    forall i, j :: 0 <= i < j < |s| ==> s[i] != s[j]
  }

  /** Places `x` in front of the first entry it may precede. */
  function Insert(x: Entry, s: seq<Entry>, field: string, dir: int): (r: seq<Entry>)
    requires Sorted(s, field, dir)
    ensures Sorted(r, field, dir)
    ensures |r| == |s| + 1
    ensures forall y :: y in r <==> y == x || y in s
    ensures Distinct(s) && x !in s ==> Distinct(r)
  {
    if s == [] || Before(x, s[0], field, dir) then [x] + s
    else
      ValueLeqTotal(ValueOf(x, field), ValueOf(s[0], field));
      var rest := Insert(x, s[1..], field, dir);
      assert forall y :: y in s <==> y == s[0] || y in s[1..];
      assert Distinct(s) && x !in s ==> Distinct(s[1..]) && x !in s[1..] && s[0] !in rest;
      var r := [s[0]] + rest;
      assert forall j :: 0 < j < |r| ==> r[j] == rest[j - 1] && r[j] in rest;
      r
  }

  /** Insertion sort: the same entries, ordered by `field` in direction `dir`. */
  function SortEntries(s: seq<Entry>, field: string, dir: int): (r: seq<Entry>)
    ensures Sorted(r, field, dir)
    ensures |r| == |s|
    ensures forall y :: y in r <==> y in s
    ensures Distinct(s) ==> Distinct(r)
  {
    if s == [] then []
    else
      assert forall y :: y in s <==> y == s[0] || y in s[1..];
      Insert(s[0], SortEntries(s[1..], field, dir), field, dir)
  }

  /** Insertion adds exactly one occurrence of `x` and keeps every other entry. */
  lemma {:induction false} InsertPermutes(x: Entry, s: seq<Entry>, field: string, dir: int)
    requires Sorted(s, field, dir)
    ensures multiset(Insert(x, s, field, dir)) == multiset(s) + multiset{x}
  {
    if s == [] || Before(x, s[0], field, dir) {
    } else {
      InsertPermutes(x, s[1..], field, dir);
      assert s == [s[0]] + s[1..];
      assert Insert(x, s, field, dir) == [s[0]] + Insert(x, s[1..], field, dir);
    }
  }

  /** Sorting is a permutation: every entry keeps its number of occurrences. */
  lemma {:induction false} SortEntriesPermutes(s: seq<Entry>, field: string, dir: int)
    ensures multiset(SortEntries(s, field, dir)) == multiset(s)
  {
    if s != [] {
      SortEntriesPermutes(s[1..], field, dir);
      InsertPermutes(s[0], SortEntries(s[1..], field, dir), field, dir);
      assert s == [s[0]] + s[1..];
    }
  }

  /** In a list sorted by `createdAt` descending, each pair of neighbours is newest first. */
  lemma NewestFirstStep(s: seq<Entry>, i: int)
    requires Sorted(s, "createdAt", -1)
    requires 0 < i < |s|
    ensures s[i - 1].task.createdAt >= s[i].task.createdAt
  {
    assert Before(s[i - 1], s[i], "createdAt", -1);
  }

  /** A list sorted by `createdAt` descending has every task at least as new as those after it. */
  lemma {:induction false} NewestFirst(s: seq<Entry>, i: int, j: int)
    requires Sorted(s, "createdAt", -1)
    requires 0 <= i < j < |s|
    ensures s[i].task.createdAt >= s[j].task.createdAt
    decreases j - i
  {
    NewestFirstStep(s, j);
    if i < j - 1 {
      NewestFirst(s, i, j - 1);
    }
  }

  /**
    `find(filter).sort(sortObj).toArray()`: every matching document exactly
    once, each with its stored content, and nothing else; ordered as the sort
    object asks (ties, and the order without a sort object, are the store's choice).
   */
  method Find(store: Store, f: Filter, sort: SortSpec) returns (items: seq<Entry>)
    ensures forall i :: 0 <= i < |items| ==>
              items[i].id in store && items[i].task == store[items[i].id] && Matches(items[i].task, f)
    ensures forall id :: id in store && Matches(store[id], f) ==> Entry(id, store[id]) in items
    ensures forall i, j :: 0 <= i < j < |items| ==> items[i].id != items[j].id
    ensures sort.SortBy? ==> Sorted(items, sort.field, sort.dir)
  {
    var found: seq<Entry> := [];
    var remaining := store.Keys;
    while remaining != {}
      invariant remaining <= store.Keys
      invariant Distinct(found)
      invariant forall e :: e in found ==>
                  e.id in store && e.task == store[e.id] && Matches(e.task, f) && e.id !in remaining
      invariant forall id :: id in store && id !in remaining && Matches(store[id], f) ==> Entry(id, store[id]) in found
      decreases remaining
    {
      var id :| id in remaining;
      if Matches(store[id], f) {
        found := found + [Entry(id, store[id])];
      }
      remaining := remaining - {id};
    }
    if sort.SortBy? {
      items := SortEntries(found, sort.field, sort.dir);
    } else {
      items := found;
    }
    assert forall i :: 0 <= i < |items| ==> items[i] in found;
  }
}

=== FILE: server_api.dfy ===
/**
  The task API of server.js (`/api/tasks`). Unlike the router in
  routes/tasks.js it does not scope by owner: listing and reading need no
  session, and update and delete match on the id alone. Writes pass through
  `validateTaskInput` and store its cleaned record; created tasks carry no
  `userId`.

  `ObjectId.isValid(id)` together with `new ObjectId(id)` is the parameter
  `parseId`; `new Date(text)` is `parseDate`; the clock is `now` and `today`;
  the id the driver generates for an insert is `newId`.
 */
module ServerApi {
  import opened Types
  import opened Text
  import opened Gates
  import opened Validation
  import opened TaskStore
  import opened Query

  /** The `title` and `sort` query parameters of a list request. */
  datatype ListQuery = ListQuery(title: Option<string>, sort: Option<string>)

  /** A write's response and the store afterwards. */
  datatype Outcome = Outcome(resp: Response, store: Store)

  /** `GET /api/tasks`: every task whose title matches the query, in the requested order. */
  method List(store: Store, q: ListQuery) returns (resp: Response)
    ensures resp.status == 200 && resp.body.Tasks?
    ensures forall e :: e in resp.body.items ==>
              e.id in store && e.task == store[e.id] && Selected(e.task, None, q.title)
    ensures forall id :: id in store && Selected(store[id], None, q.title) ==> Entry(id, store[id]) in resp.body.items
    ensures forall i, j :: 0 <= i < j < |resp.body.items| ==> resp.body.items[i].id != resp.body.items[j].id
    ensures ParseSort(q.sort).SortBy? ==> Sorted(resp.body.items, ParseSort(q.sort).field, ParseSort(q.sort).dir)
  {
    var f := BuildFilter(None, q.title);
    forall t: Task {
      FilterSelects(t, None, q.title);
    }
    var items := Find(store, f, ParseSort(q.sort));
    resp := Response(200, Tasks(items));
  }

  /** `GET /api/tasks/:id`: the id is trimmed; a malformed id is 400, an unknown one 404. */
  function GetById(store: Store, rawId: string, parseId: string -> Option<Id>): (resp: Response)
    ensures parseId(Trim(rawId)).None? ==> resp == InvalidId
    ensures parseId(Trim(rawId)).Some? && parseId(Trim(rawId)).value !in store ==> resp == TaskNotFound
    ensures resp.status == 200 <==> parseId(Trim(rawId)).Some? && parseId(Trim(rawId)).value in store
    ensures resp.status == 200 ==>
              var id := parseId(Trim(rawId)).value; resp.body == One(Entry(id, store[id]))
  {
    match parseId(Trim(rawId))
    case None => InvalidId
    case Some(id) => if id in store then Response(200, One(Entry(id, store[id]))) else TaskNotFound
  }

  /** The stored form of a validated deadline: its timestamp, or `null`. */
  function StoredDeadline(d: Option<Instant>): Option<int> {
    if d.Some? then Some(d.value.ms) else None
  }

  /** The `$set` of an update from a cleaned record. */
  function CleanedPatch(c: Cleaned): Patch {
    Patch(Some(c.title), Some(c.details), Some(c.status), Some(c.priority), Some(c.category), StoredDeadline(c.deadline))
  }

  /**
    The document `POST /api/tasks` inserts: the cleaned fields, no owner, and
    `createdAt` equal to `updatedAt`.
   */
  function NewTask(c: Cleaned, now: int): (t: Task)
    ensures t.userId == None && t.createdAt == now && t.updatedAt == now
    ensures t.title == Some(c.title) && t.details == Some(c.details) && t.status == Some(c.status)
    ensures t.priority == Some(c.priority) && t.category == Some(c.category)
    ensures t.deadline == StoredDeadline(c.deadline)
  {
    Task(None, Some(c.title), Some(c.details), Some(c.status), Some(c.priority), Some(c.category),
         StoredDeadline(c.deadline), now, now)
  }

  /**
    `POST /api/tasks`: 401 without a session, 400 with every validation error,
    otherwise the cleaned record is inserted, without an owner, with
    `createdAt == updatedAt == now`, and its id is returned with 201.
   */
  function Create(session: Session, store: Store, body: Body, parseDate: string -> Option<Instant>,
                  today: Day, newId: Id, now: int): (r: Outcome)
    ensures !Authenticated(session) ==> r == Outcome(Unauthorized, store)
    ensures var v := ValidateTaskInput(body, parseDate, today);
            Authenticated(session) && !v.ok ==> r == Outcome(Response(400, Invalid(v.errors)), store)
    ensures r.resp.status == 201 <==>
              Authenticated(session) && ValidateTaskInput(body, parseDate, today).ok && newId !in store
    ensures r.resp.status != 201 ==> r.store == store
    ensures r.resp.status == 201 ==>
              && r.resp.body == Created(newId)
              && r.store == store[newId := NewTask(ValidateTaskInput(body, parseDate, today).cleaned, now)]
  {
    if !Authenticated(session) then Outcome(Unauthorized, store)
    else
      var v := ValidateTaskInput(body, parseDate, today);
      if !v.ok then Outcome(Response(400, Invalid(v.errors)), store)
      else
        var w := InsertOne(store, newId, NewTask(v.cleaned, now));
        if w.applied then Outcome(Response(201, Created(newId)), w.store) else Outcome(DatabaseError, store)
  }

  /**
    `PUT /api/tasks/:id`: 401, then 400 for a malformed id, then 400 with the
    validation errors, all before the store is touched; then an update of the
    task with that id, whoever owns it: 200 exactly when the id is in the
    store, 404 when it is not.
   */
  function Update(session: Session, store: Store, rawId: string, body: Body, parseId: string -> Option<Id>,
                  parseDate: string -> Option<Instant>, today: Day, now: int): (r: Outcome)
    ensures !Authenticated(session) ==> r == Outcome(Unauthorized, store)
    ensures Authenticated(session) && parseId(Trim(rawId)).None? ==> r == Outcome(InvalidId, store)
    ensures var v := ValidateTaskInput(body, parseDate, today);
            Authenticated(session) && parseId(Trim(rawId)).Some? && !v.ok
            ==> r == Outcome(Response(400, Invalid(v.errors)), store)
    ensures r.resp == TaskNotFound <==>
              && Authenticated(session) && parseId(Trim(rawId)).Some?
              && ValidateTaskInput(body, parseDate, today).ok && parseId(Trim(rawId)).value !in store
    ensures r.resp.status != 200 ==> r.store == store
    ensures r.resp.status == 200 <==>
              && Authenticated(session) && parseId(Trim(rawId)).Some?
              && ValidateTaskInput(body, parseDate, today).ok && parseId(Trim(rawId)).value in store
  {
    if !Authenticated(session) then Outcome(Unauthorized, store)
    else
      match parseId(Trim(rawId))
      case None => Outcome(InvalidId, store)
      case Some(id) =>
        var v := ValidateTaskInput(body, parseDate, today);
        if !v.ok then Outcome(Response(400, Invalid(v.errors)), store)
        else
          var w := UpdateOne(store, Scope(id, None), CleanedPatch(v.cleaned), now);
          if w.applied then Outcome(Response(200, Message("updated")), w.store) else Outcome(TaskNotFound, store)
  }

  /**
    A successful `PUT /api/tasks/:id` rewrites only the addressed task: the
    cleaned fields and `updatedAt` are set, its owner and `createdAt` are kept,
    and every other task is untouched.
   */
  lemma UpdateChangesOnlyTarget(session: Session, store: Store, rawId: string, body: Body,
                                parseId: string -> Option<Id>, parseDate: string -> Option<Instant>,
                                today: Day, now: int)
    ensures var r := Update(session, store, rawId, body, parseId, parseDate, today, now);
            r.resp.status == 200 ==>
              var id, c := parseId(Trim(rawId)).value, ValidateTaskInput(body, parseDate, today).cleaned;
              && id in store && r.resp.body == Message("updated")
              && r.store.Keys == store.Keys
              && (forall k :: k in store && k != id ==> r.store[k] == store[k])
              && r.store[id].userId == store[id].userId && r.store[id].createdAt == store[id].createdAt
              && r.store[id].updatedAt == now
              && r.store[id].title == Some(c.title) && r.store[id].details == Some(c.details)
              && r.store[id].status == Some(c.status) && r.store[id].priority == Some(c.priority)
              && r.store[id].category == Some(c.category) && r.store[id].deadline == StoredDeadline(c.deadline)
  {
  }

  /**
    `DELETE /api/tasks/:id`: 401, then 400 for a malformed id; then the task
    with that id is removed whoever owns it: 200 exactly when the id is in the
    store, 404 when it is not.
   */
  function Delete(session: Session, store: Store, rawId: string, parseId: string -> Option<Id>): (r: Outcome)
    ensures !Authenticated(session) ==> r == Outcome(Unauthorized, store)
    ensures Authenticated(session) && parseId(Trim(rawId)).None? ==> r == Outcome(InvalidId, store)
    ensures r.resp == TaskNotFound <==>
              Authenticated(session) && parseId(Trim(rawId)).Some? && parseId(Trim(rawId)).value !in store
    ensures r.resp.status != 200 ==> r.store == store
    ensures r.resp.status == 200 <==>
              Authenticated(session) && parseId(Trim(rawId)).Some? && parseId(Trim(rawId)).value in store
    ensures r.resp.status == 200 ==>
              var id := parseId(Trim(rawId)).value;
              && id in store && r.resp.body == Message("deleted")
              && r.store.Keys == store.Keys - {id}
              && (forall k :: k in r.store ==> r.store[k] == store[k])
  {
    if !Authenticated(session) then Outcome(Unauthorized, store)
    else
      match parseId(Trim(rawId))
      case None => Outcome(InvalidId, store)
      case Some(id) =>
        var w := DeleteOne(store, Scope(id, None));
        if w.applied then Outcome(Response(200, Message("deleted")), w.store) else Outcome(TaskNotFound, store)
  }
}

=== FILE: store.dfy ===
/**
  The tasks collection as a finite map from id to document, with the three
  single-document operations the routes issue: `insertOne`, `updateOne` with a
  `$set` of the task fields, and `deleteOne`. Each is one atomic step on the map.
 */
module TaskStore {
  import opened Types

  type Store = map<Id, Task>

  /**
    The filter `{_id: id}` or `{_id: id, userId: owner}`: the document with
    that id, provided it belongs to the owner when one is named.
   */
  datatype Scope = Scope(id: Id, owner: Option<string>)

  predicate InScope(store: Store, scope: Scope) {
    scope.id in store && (scope.owner.None? || store[scope.id].userId == scope.owner)
  }

  /** The fields an update `$set`s besides `updatedAt`. */
  datatype Patch = Patch(
    title: Option<string>,
    details: Option<string>,
    status: Option<string>,
    priority: Option<string>,
    category: Option<string>,
    deadline: Option<int>)

  /**
    The outcome of a write: whether it took effect (a document matched, or the
    insert succeeded), and the store afterwards.
   */
  datatype Write = Write(applied: bool, store: Store)

  /** The document after `$set`: the patched fields and the new `updatedAt`; everything else kept. */
  function Apply(t: Task, p: Patch, now: int): Task {
    t.(title := p.title, details := p.details, status := p.status, priority := p.priority,
       category := p.category, deadline := p.deadline, updatedAt := now)
  }

  /**
    `updateOne(filter, {$set: …})`: it matches exactly when the scoped document
    exists; then only that document changes, and within it only the patched
    fields and `updatedAt`, so its owner and `createdAt` survive. Without a
    match nothing changes.
   */
  function UpdateOne(store: Store, scope: Scope, p: Patch, now: int): (w: Write)
    ensures w.applied <==> InScope(store, scope)
    ensures w.store.Keys == store.Keys
    ensures forall k :: k in store && k != scope.id ==> w.store[k] == store[k]
    ensures !w.applied ==> w.store == store
    ensures w.applied ==>
              var t, u := store[scope.id], w.store[scope.id];
              && u.userId == t.userId && u.createdAt == t.createdAt
              && u.title == p.title && u.details == p.details && u.status == p.status
              && u.priority == p.priority && u.category == p.category && u.deadline == p.deadline
              && u.updatedAt == now
  {
    if InScope(store, scope) then Write(true, store[scope.id := Apply(store[scope.id], p, now)])
    else Write(false, store)
  }

  /**
    `deleteOne(filter)`: it deletes exactly when the scoped document exists,
    and then removes that document alone; without a match nothing changes.
   */
  function DeleteOne(store: Store, scope: Scope): (w: Write)
    ensures w.applied <==> InScope(store, scope)
    ensures w.applied ==> w.store.Keys == store.Keys - {scope.id}
    ensures !w.applied ==> w.store == store
    ensures forall k :: k in w.store ==> k in store && w.store[k] == store[k]
  {
    if InScope(store, scope) then Write(true, map k | k in store && k != scope.id :: store[k])
    else Write(false, store)
  }

  /**
    `insertOne(doc)` under the id the driver generated: it fails on a duplicate
    key, and otherwise adds that one document and keeps every other.
   */
  function InsertOne(store: Store, id: Id, t: Task): (w: Write)
    ensures w.applied <==> id !in store
    ensures w.applied ==> w.store.Keys == store.Keys + {id} && w.store[id] == t
    ensures !w.applied ==> w.store == store
    ensures forall k :: k in store ==> k in w.store && w.store[k] == store[k]
  {
    if id in store then Write(false, store) else Write(true, store[id := t])
  }
}

=== FILE: task_routes.dfy ===
/**
  The owner-scoped task router of routes/tasks.js. Every route needs a
  session; the list, update and delete filters all carry
  `userId == session.userId`, so another user's task is indistinguishable from
  a missing one. This router stores the request body as it comes, without
  `validateTaskInput`, filling defaults with `||` on create only.

  `ObjectId.isValid(id)` with `new ObjectId(id)` is `parseId`, `new Date(text)`
  is `parseDate`, the clock is `now`, the generated id of an insert is `newId`.
 */
module TaskRoutes {
  import opened Types
  import opened Gates
  import opened TaskStore
  import opened Query
  import ServerApi

  /**
    `body.deadline ? new Date(body.deadline) : null` as stored: a text that does
    not parse is an Invalid Date, which the BSON serializer writes as timestamp 0.
   */
  function RawDeadline(raw: Option<string>, parseDate: string -> Option<Instant>): (r: Option<int>)
    ensures !Truthy(raw) ==> r == None
    ensures Truthy(raw) && parseDate(raw.value).Some? ==> r == Some(parseDate(raw.value).value.ms)
    ensures Truthy(raw) && parseDate(raw.value).None? ==> r == Some(0)
  {
    if !Truthy(raw) then None
    else
      match parseDate(raw.value)
      case Some(d) => Some(d.ms)
      case None => Some(0)
  }

  /** The `$set` of an update: the body's fields exactly as sent (absent ones become `null`). */
  function RawPatch(body: Body, parseDate: string -> Option<Instant>): Patch {
    Patch(body.title, body.details, body.status, body.priority, body.category, RawDeadline(body.deadline, parseDate))
  }

  /**
    The document `POST /api/tasks` inserts: attributed to the session's user,
    title and details as sent, status, priority and category defaulting to
    "todo", "medium" and "general" when absent or empty, `createdAt == updatedAt`.
   */
  function NewTask(owner: string, body: Body, parseDate: string -> Option<Instant>, now: int): (t: Task)
    ensures t.userId == Some(owner)
    ensures t.createdAt == now && t.updatedAt == now
    ensures t.title == body.title && t.details == body.details
    ensures t.status == Some(if Truthy(body.status) then body.status.value else "todo")
    ensures t.priority == Some(if Truthy(body.priority) then body.priority.value else "medium")
    ensures t.category == Some(if Truthy(body.category) then body.category.value else "general")
    ensures t.deadline == RawDeadline(body.deadline, parseDate)
  {
    Task(Some(owner), body.title, body.details, Some(OrElse(body.status, "todo")),
         Some(OrElse(body.priority, "medium")), Some(OrElse(body.category, "general")),
         RawDeadline(body.deadline, parseDate), now, now)
  }

  /**
    `GET /api/tasks`: 401 without a session; otherwise exactly the caller's
    tasks whose title matches the query, each once, in the requested order.
   */
  method List(session: Session, store: Store, q: ServerApi.ListQuery) returns (resp: Response)
    ensures !Authenticated(session) ==> resp == Unauthorized
    ensures Authenticated(session) ==> resp.status == 200 && resp.body.Tasks?
    ensures Authenticated(session) ==>
              forall e :: e in resp.body.items ==>
                e.id in store && e.task == store[e.id] && e.task.userId == session.userId
                && Selected(e.task, session.userId, q.title)
    ensures Authenticated(session) ==>
              forall id :: id in store && Selected(store[id], session.userId, q.title)
                ==> Entry(id, store[id]) in resp.body.items
    ensures Authenticated(session) ==>
              forall i, j :: 0 <= i < j < |resp.body.items| ==> resp.body.items[i].id != resp.body.items[j].id
    ensures Authenticated(session) && ParseSort(q.sort).SortBy? ==>
              Sorted(resp.body.items, ParseSort(q.sort).field, ParseSort(q.sort).dir)
  {
    if !Authenticated(session) {
      return Unauthorized;
    }
    forall t: Task {
      FilterSelects(t, session.userId, q.title);
    }
    var items := Find(store, BuildFilter(session.userId, q.title), ParseSort(q.sort));
    resp := Response(200, Tasks(items));
  }

  /**
    `POST /api/tasks`: 401 without a session; otherwise the body is inserted as
    the caller's task and its id returned with 201 (500 if the id is taken).
   */
  function Create(session: Session, store: Store, body: Body, parseDate: string -> Option<Instant>,
                  newId: Id, now: int): (r: ServerApi.Outcome)
    ensures !Authenticated(session) ==> r == ServerApi.Outcome(Unauthorized, store)
    ensures r.resp.status == 201 <==> Authenticated(session) && newId !in store
    ensures r.resp.status != 201 ==> r.store == store
    ensures r.resp.status == 201 ==>
              && r.resp.body == Created(newId)
              && r.store == store[newId := NewTask(session.userId.value, body, parseDate, now)]
  {
    if !Authenticated(session) then ServerApi.Outcome(Unauthorized, store)
    else
      var w := InsertOne(store, newId, NewTask(session.userId.value, body, parseDate, now));
      if w.applied then ServerApi.Outcome(Response(201, Created(newId)), w.store)
      else ServerApi.Outcome(DatabaseError, store)
  }

  /** The task the id names belongs to the session's user. */
  predicate Owns(session: Session, store: Store, id: Id) {
    id in store && store[id].userId == session.userId
  }

  /**
    `PUT /api/tasks/:id`: 401, then 400 for a malformed id, both before the
    store is read; then one conditional update on `{_id, userId}`. It succeeds
    exactly when the caller owns a task with that id; a foreign task and a
    missing one both give 404 and leave the store as it was.
   */
  function Update(session: Session, store: Store, rawId: string, body: Body, parseId: string -> Option<Id>,
                  parseDate: string -> Option<Instant>, now: int): (r: ServerApi.Outcome)
    ensures !Authenticated(session) ==> r == ServerApi.Outcome(Unauthorized, store)
    ensures Authenticated(session) && parseId(rawId).None? ==> r == ServerApi.Outcome(InvalidId, store)
    ensures r.resp.status == 200 <==>
              Authenticated(session) && parseId(rawId).Some? && Owns(session, store, parseId(rawId).value)
    ensures Authenticated(session) && parseId(rawId).Some? && !Owns(session, store, parseId(rawId).value)
            ==> r == ServerApi.Outcome(TaskNotFound, store)
    ensures r.resp.status != 200 ==> r.store == store
  {
    if !Authenticated(session) then ServerApi.Outcome(Unauthorized, store)
    else
      match parseId(rawId)
      case None => ServerApi.Outcome(InvalidId, store)
      case Some(id) =>
        var w := UpdateOne(store, Scope(id, session.userId), RawPatch(body, parseDate), now);
        if w.applied then ServerApi.Outcome(Response(200, Message("updated")), w.store)
        else ServerApi.Outcome(TaskNotFound, store)
  }

  /**
    A successful `PUT /api/tasks/:id` overwrites only title, details, status,
    priority, category, deadline and `updatedAt` of the caller's task; its
    owner and `createdAt` stay, and all other tasks are untouched.
   */
  lemma UpdateChangesOnlyTarget(session: Session, store: Store, rawId: string, body: Body,
                                parseId: string -> Option<Id>, parseDate: string -> Option<Instant>, now: int)
    ensures var r := Update(session, store, rawId, body, parseId, parseDate, now);
            r.resp.status == 200 ==>
              var id := parseId(rawId).value;
              && id in store && r.resp.body == Message("updated")
              && r.store.Keys == store.Keys
              && (forall k :: k in store && k != id ==> r.store[k] == store[k])
              && r.store[id].userId == store[id].userId && r.store[id].createdAt == store[id].createdAt
              && r.store[id].updatedAt == now
              && r.store[id].title == body.title && r.store[id].details == body.details
              && r.store[id].status == body.status && r.store[id].priority == body.priority
              && r.store[id].category == body.category
              && r.store[id].deadline == RawDeadline(body.deadline, parseDate)
  {
  }

  /**
    `DELETE /api/tasks/:id`: 401, then 400 for a malformed id; then one
    conditional delete on `{_id, userId}`, which removes exactly the caller's
    task with that id, and answers 404 with the store unchanged otherwise.
   */
  function Delete(session: Session, store: Store, rawId: string, parseId: string -> Option<Id>): (r: ServerApi.Outcome)
    ensures !Authenticated(session) ==> r == ServerApi.Outcome(Unauthorized, store)
    ensures Authenticated(session) && parseId(rawId).None? ==> r == ServerApi.Outcome(InvalidId, store)
    ensures r.resp.status == 200 <==>
              Authenticated(session) && parseId(rawId).Some? && Owns(session, store, parseId(rawId).value)
    ensures Authenticated(session) && parseId(rawId).Some? && !Owns(session, store, parseId(rawId).value)
            ==> r == ServerApi.Outcome(TaskNotFound, store)
    ensures r.resp.status != 200 ==> r.store == store
    ensures r.resp.status == 200 ==>
              && r.resp.body == Message("deleted")
              && r.store.Keys == store.Keys - {parseId(rawId).value}
              && (forall k :: k in r.store ==> r.store[k] == store[k])
  {
    if !Authenticated(session) then ServerApi.Outcome(Unauthorized, store)
    else
      match parseId(rawId)
      case None => ServerApi.Outcome(InvalidId, store)
      case Some(id) =>
        var w := DeleteOne(store, Scope(id, session.userId));
        if w.applied then ServerApi.Outcome(Response(200, Message("deleted")), w.store)
        else ServerApi.Outcome(TaskNotFound, store)
  }

  /**
    Another user's task cannot be told apart from a missing one: updating or
    deleting it gives the same 404, and the store stays as it was.
   */
  lemma ForeignTaskLooksMissing(session: Session, store: Store, rawId: string, body: Body,
                                parseId: string -> Option<Id>, parseDate: string -> Option<Instant>, now: int)
    requires Authenticated(session) && parseId(rawId).Some?
    requires parseId(rawId).value in store && store[parseId(rawId).value].userId != session.userId
    ensures Update(session, store, rawId, body, parseId, parseDate, now)
            == Update(session, store - {parseId(rawId).value}, rawId, body, parseId, parseDate, now).(store := store)
    ensures Delete(session, store, rawId, parseId)
            == Delete(session, store - {parseId(rawId).value}, rawId, parseId).(store := store)
    ensures Update(session, store, rawId, body, parseId, parseDate, now) == ServerApi.Outcome(TaskNotFound, store)
    ensures Delete(session, store, rawId, parseId) == ServerApi.Outcome(TaskNotFound, store)
  {
  }
}

=== FILE: text.dfy ===
/**
  The JavaScript string operations the request handlers apply to user input:
  `trim()`, `toLowerCase()` (ASCII letters only) and `replace(/\s+/g, '')`.
 */
module Text {

  /** The characters both `String.prototype.trim` and the regex class `\s` treat as white space. */
  predicate IsSpace(c: char) {
    || c == ' ' || c == '\t' || c == '\n' || c == '\r' || c == '\U{000B}' || c == '\U{000C}'
    || c == '\U{00A0}' || c == '\U{1680}' || ('\U{2000}' <= c <= '\U{200A}') || c == '\U{2028}'
    || c == '\U{2029}' || c == '\U{202F}' || c == '\U{205F}' || c == '\U{3000}' || c == '\U{FEFF}'
  }

  predicate NoSpace(s: string) {
    forall i :: 0 <= i < |s| ==> !IsSpace(s[i])
  }

  /** `s` neither starts nor ends with white space. */
  predicate Trimmed(s: string) {
    s == [] || (!IsSpace(s[0]) && !IsSpace(s[|s| - 1]))
  }

  /** The first index at or after `i` that does not hold white space (or `|s|`). */
  function SkipSpaces(s: string, i: nat): (k: nat)
    requires i <= |s|
    ensures i <= k <= |s|
    ensures forall j :: i <= j < k ==> IsSpace(s[j])
    ensures k < |s| ==> !IsSpace(s[k])
    decreases |s| - i
  {
    if i < |s| && IsSpace(s[i]) then SkipSpaces(s, i + 1) else i
  }

  /**
    Where the text of `s[lo..e]` ends once its trailing white space is dropped:
    everything from the result up to `e` is white space, and the character
    before the result, if it lies after `lo`, is not.
   */
  function SkipSpacesBack(s: string, lo: nat, e: nat): (k: nat)
    requires lo <= e <= |s|
    ensures lo <= k <= e
    ensures forall j :: k <= j < e ==> IsSpace(s[j])
    ensures k > lo ==> !IsSpace(s[k - 1])
  {
    if e > lo && IsSpace(s[e - 1]) then SkipSpacesBack(s, lo, e - 1) else e
  }

  /** How many white-space characters `s` starts with. */
  function LeadingSpaces(s: string): nat
    ensures LeadingSpaces(s) <= |s|
  {
    SkipSpaces(s, 0)
  }

  /** `String.prototype.trim`: `s` without its leading and trailing white space. */
  function Trim(s: string): (r: string)
    ensures Trimmed(r)
  {
    var k := LeadingSpaces(s);
    s[k..SkipSpacesBack(s, k, |s|)]
  }

  /** `r` is the slice of `s` starting at `k`, and everything of `s` around it is white space. */
  predicate SliceBetweenSpaces(s: string, r: string, k: int) {
    && 0 <= k && k + |r| <= |s| && r == s[k..k + |r|]
    && (forall i :: 0 <= i < k ==> IsSpace(s[i]))
    && (forall i :: k + |r| <= i < |s| ==> IsSpace(s[i]))
  }

  /**
    What `trim` removes: the result is a slice of `s` with nothing but white
    space before and after it, and it neither starts nor ends with white space.
   */
  lemma TrimIsSlice(s: string)
    ensures SliceBetweenSpaces(s, Trim(s), LeadingSpaces(s))
  {
  }

  /** Trimming a string that is already trimmed changes nothing. */
  lemma TrimOfTrimmed(s: string)
    requires Trimmed(s)
    ensures Trim(s) == s
  {
  }

  /** `trim` is idempotent. */
  lemma TrimIdempotent(s: string)
    ensures Trim(Trim(s)) == Trim(s)
  {
    TrimOfTrimmed(Trim(s));
  }

  predicate IsUpper(c: char) {
    'A' <= c <= 'Z'
  }

  function LowerChar(c: char): char {
    if IsUpper(c) then (c as int + 32) as char else c
  }

  /**
    `toLowerCase` on ASCII: upper-case letters become their lower-case
    counterparts, every other character is kept, so no upper-case letter remains.
   */
  function Lower(s: string): (r: string)
    ensures |r| == |s|
    ensures forall i :: 0 <= i < |s| ==> !IsUpper(r[i])
    ensures forall i :: 0 <= i < |s| && !IsUpper(s[i]) ==> r[i] == s[i]
    ensures forall i :: 0 <= i < |s| && IsUpper(s[i]) ==> r[i] as int == s[i] as int + 32
  {
    seq(|s|, i requires 0 <= i < |s| => LowerChar(s[i]))
  }

  /** A string without upper-case letters is its own lower-case form. */
  lemma LowerOfLower(s: string)
    requires forall i :: 0 <= i < |s| ==> !IsUpper(s[i])
    ensures Lower(s) == s
  {
  }

  /** Lower-casing twice is lower-casing once. */
  lemma LowerIdempotent(s: string)
    ensures Lower(Lower(s)) == Lower(s)
  {
    LowerOfLower(Lower(s));
  }

  /** Lower-casing neither creates nor removes white space. */
  lemma LowerKeepsSpaces(s: string)
    ensures forall i :: 0 <= i < |s| ==> (IsSpace(Lower(s)[i]) <==> IsSpace(s[i]))
  {
  }

  /** Case-insensitive equality, as the regex option `i` compares letters. */
  predicate EqualsIgnoreCase(a: string, b: string) {
    Lower(a) == Lower(b)
  }

  /** `replace(/\s+/g, '')`: the non-white-space characters of `s`, in order. */
  function RemoveSpaces(s: string): (r: string)
    ensures NoSpace(r)
    ensures |r| <= |s|
    ensures forall c :: c in r ==> c in s
  {
    if s == [] then []
    else if IsSpace(s[0]) then RemoveSpaces(s[1..])
    else [s[0]] + RemoveSpaces(s[1..])
  }

  /** Removing white space from a string that has none changes nothing. */
  lemma {:induction false} RemoveSpacesOfNoSpace(s: string)
    requires NoSpace(s)
    ensures RemoveSpaces(s) == s
  {
    if s != [] {
      RemoveSpacesOfNoSpace(s[1..]);
    }
  }

  /** Removing white space distributes over concatenation. */
  lemma {:induction false} RemoveSpacesConcat(a: string, b: string)
    ensures RemoveSpaces(a + b) == RemoveSpaces(a) + RemoveSpaces(b)
  {
    if a == [] {
      assert a + b == b;
    } else {
      assert (a + b)[1..] == a[1..] + b;
      RemoveSpacesConcat(a[1..], b);
    }
  }

  /** Removing white space from nothing but white space leaves nothing. */
  lemma {:induction false} RemoveSpacesAllSpace(s: string)
    requires forall i :: 0 <= i < |s| ==> IsSpace(s[i])
    ensures RemoveSpaces(s) == []
  {
    if s != [] {
      assert IsSpace(s[0]);
      RemoveSpacesAllSpace(s[1..]);
    }
  }

  /** Trimming first makes no difference once all white space is removed. */
  lemma RemoveSpacesOfTrim(s: string)
    ensures RemoveSpaces(Trim(s)) == RemoveSpaces(s)
  {
    TrimIsSlice(s);
    var t, k := Trim(s), LeadingSpaces(s);
    var e := k + |t|;
    assert s == s[..k] + t + s[e..];
    RemoveSpacesAllSpace(s[..k]);
    RemoveSpacesAllSpace(s[e..]);
    RemoveSpacesConcat(s[..k] + t, s[e..]);
    RemoveSpacesConcat(s[..k], t);
  }

  /** Lower-casing distributes over concatenation. */
  lemma LowerConcat(a: string, b: string)
    ensures Lower(a + b) == Lower(a) + Lower(b)
  {
    assert forall i :: 0 <= i < |a| ==> (a + b)[i] == a[i];
    assert forall i :: |a| <= i < |a + b| ==> (a + b)[i] == b[i - |a|];
  }

  /** Lower-casing and removing white space commute. */
  lemma {:induction false} RemoveSpacesLower(s: string)
    ensures RemoveSpaces(Lower(s)) == Lower(RemoveSpaces(s))
  {
    if s != [] {
      var l := Lower(s);
      assert l[1..] == Lower(s[1..]);
      LowerKeepsSpaces(s);
      assert IsSpace(l[0]) <==> IsSpace(s[0]);
      RemoveSpacesLower(s[1..]);
      if !IsSpace(s[0]) {
        LowerConcat([s[0]], RemoveSpaces(s[1..]));
        assert Lower([s[0]]) == [l[0]];
      }
    }
  }
}

=== FILE: types.dfy ===
/**
  Shared vocabulary of the task board: optional values, calendar days,
  parsed dates, the task document as the store holds it, request bodies,
  the session record and HTTP responses.
 */
module Types {

  /** A value that may be absent: JavaScript's `undefined`/`null` versus a value. */
  datatype Option<+T> = None | Some(value: T)

  /** The string rendering of a MongoDB ObjectId, used as the key of a document. */
  type Id = string

  /** A local calendar day, as `getFullYear()`, `getMonth()` and `getDate()` report it. */
  datatype Day = Day(year: int, month: int, date: int)

  /** Local midnight of `a` is strictly earlier than local midnight of `b`. */
  predicate DayBefore(a: Day, b: Day) {
    a.year < b.year
    || (a.year == b.year && a.month < b.month)
    || (a.year == b.year && a.month == b.month && a.date < b.date)
  }

  /** A successfully parsed `Date`: milliseconds since the epoch and the local day it falls on. */
  datatype Instant = Instant(ms: int, day: Day)

  /**
    A task document. Text fields are optional because the routes that store
    the request body unchecked may write `null`; `deadline` is the stored
    timestamp in milliseconds, or `null`; `userId` is absent on tasks
    created through the unscoped API.
   */
  datatype Task = Task(
    userId: Option<string>,
    title: Option<string>,
    details: Option<string>,
    status: Option<string>,
    priority: Option<string>,
    category: Option<string>,
    deadline: Option<int>,
    createdAt: int,
    updatedAt: int)

  /** A task as returned to the client: the document with its id rendered as a string. */
  datatype Entry = Entry(id: Id, task: Task)

  /** The six task fields of a JSON request body, each absent or a string. */
  datatype Body = Body(
    title: Option<string>,
    details: Option<string>,
    status: Option<string>,
    priority: Option<string>,
    category: Option<string>,
    deadline: Option<string>)

  /** The part of the server-side session the application reads and writes. */
  datatype Session = Session(userId: Option<string>, role: Option<string>)

  /** The session after `destroy`. */
  const NoSession := Session(None, None)

  /** JSON payloads of the responses. */
  datatype Payload =
    | Error(error: string)
    | Message(message: string)
    | Created(id: Id)
    | Invalid(details: seq<string>)   // {error: 'validation error', details}
    | Tasks(items: seq<Entry>)
    | One(entry: Entry)
    | Identity(authenticated: bool, role: Option<string>)

  datatype Response = Response(status: int, body: Payload)

  const InvalidId := Response(400, Error("invalid id"))
  const TaskNotFound := Response(404, Error("task not found"))
  const DatabaseError := Response(500, Error("database error"))

  /** JavaScript truthiness of an optional string: present and non-empty. */
  predicate Truthy(s: Option<string>) {
    s.Some? && s.value != ""
  }

  /** JavaScript `s || fallback` on an optional string. */
  function OrElse(s: Option<string>, fallback: string): string {
    if Truthy(s) then s.value else fallback
  }

  /** JavaScript `s ?? fallback` on an optional string. */
  function Coalesce(s: Option<string>, fallback: string): string {
    if s.Some? then s.value else fallback
  }
}

=== FILE: validation.dfy ===
/**
  `validateTaskInput` of server.js: trims and normalises the six task fields,
  collects an error for each strict field that is out of bounds (title,
  details, status, deadline), and silently falls back to a default for the
  lenient ones (priority, category).

  `new Date(text)` is the parameter `parse`; the current local day is `today`.
 */
module Validation {
  import opened Types
  import opened Text

  const TitleError := "title must be 2-100 chars"
  const DetailsError := "details must be 2-500 chars"
  const StatusError := "status must be todo|inprogress|done"
  const DateError := "deadline must be a valid date"
  const PastError := "deadline cannot be in the past"

  const AllowedStatus: set<string> := {"todo", "inprogress", "done"}
  const AllowedPriority: set<string> := {"low", "medium", "high"}

  /** The normalised task fields; `deadline` is the parsed date or `null`. */
  datatype Cleaned = Cleaned(
    title: string,
    details: string,
    status: string,
    priority: string,
    category: string,
    deadline: Option<Instant>)

  /** The result object `{ok, errors, cleaned}`. */
  datatype Validated = Validated(ok: bool, errors: seq<string>, cleaned: Cleaned)

  /**
    Trimmed, lower-cased, all white space removed: the result is the input's
    non-white-space characters, in order, lower-cased; it holds neither white
    space nor upper-case letters, and a missing status counts as "todo".
   */
  function NormalizeStatus(raw: Option<string>): (r: string)
    ensures NoSpace(r)
    ensures forall i :: 0 <= i < |r| ==> !IsUpper(r[i])
    ensures raw.None? ==> r == "todo"
    ensures r == Lower(RemoveSpaces(Coalesce(raw, "todo")))
  {
    var lowered := Lower(Trim(Coalesce(raw, "todo")));
    RemoveSpacesKeepsLower(lowered);
    RemoveSpacesLower(Trim(Coalesce(raw, "todo")));
    RemoveSpacesOfTrim(Coalesce(raw, "todo"));
    DefaultStatus();
    RemoveSpaces(lowered)
  }

  /** Dropping white space from a text without upper-case letters adds none. */
  lemma RemoveSpacesKeepsLower(s: string)
    requires forall i :: 0 <= i < |s| ==> !IsUpper(s[i])
    ensures forall i :: 0 <= i < |RemoveSpaces(s)| ==> !IsUpper(RemoveSpaces(s)[i])
  {
    var r := RemoveSpaces(s);
    forall i | 0 <= i < |r|
      ensures !IsUpper(r[i])
    {
      assert r[i] in s;
    }
  }

  /** The default status is already in normal form. */
  lemma DefaultStatus()
    ensures RemoveSpaces(Lower(Trim("todo"))) == "todo"
  {
    PlainWord("todo");
    TrimOfTrimmed("todo");
    LowerOfLower("todo");
    RemoveSpacesOfNoSpace("todo");
  }

  /** Trimmed and lower-cased; anything outside low/medium/high becomes "medium". */
  function NormalizePriority(raw: Option<string>): (r: string)
    ensures r in AllowedPriority
    ensures Lower(Trim(Coalesce(raw, "medium"))) in AllowedPriority ==> r == Lower(Trim(Coalesce(raw, "medium")))
    ensures Lower(Trim(Coalesce(raw, "medium"))) !in AllowedPriority ==> r == "medium"
  {
    assert "medium" in AllowedPriority;
    var p := Lower(Trim(Coalesce(raw, "medium")));
    if p in AllowedPriority then p else "medium"
  }

  /** Trimmed; an empty category or one outside 2..40 characters becomes "general". */
  function NormalizeCategory(raw: Option<string>): (r: string)
    ensures 2 <= |r| <= 40
    ensures r == Trim(Coalesce(raw, "general")) || r == "general"
    ensures 2 <= |Trim(Coalesce(raw, "general"))| <= 40 ==> r == Trim(Coalesce(raw, "general"))
  {
    assert |"general"| == 7;
    var c := Trim(Coalesce(raw, "general"));
    if c == "" || |c| < 2 || |c| > 40 then "general" else c
  }

  /** The outcome of the deadline rule: the accepted date, or the error it raises. */
  datatype DeadlineCheck = DeadlineCheck(deadline: Option<Instant>, error: Option<string>)

  /** The trimmed deadline text of a body; absent counts as empty. */
  function DeadlineText(body: Body): string {
    Trim(Coalesce(body.deadline, ""))
  }

  /**
    An empty deadline is no deadline; otherwise it must parse, and its local day
    must not be before today's (the time of day is ignored).
   */
  function CheckDeadline(text: string, parse: string -> Option<Instant>, today: Day): (r: DeadlineCheck)
    ensures text == "" ==> r == DeadlineCheck(None, None)
    ensures r.error.Some? ==> r.error.value in {DateError, PastError}
    ensures r.error == Some(DateError) <==> text != "" && parse(text).None?
    ensures r.error == Some(PastError) <==> text != "" && parse(text).Some? && DayBefore(parse(text).value.day, today)
    ensures r.error.None? <==> r.deadline.Some? || text == ""
    ensures r.deadline.Some? ==> r.deadline == parse(text)
  {
    if text == "" then DeadlineCheck(None, None)
    else
      match parse(text)
      case None => DeadlineCheck(None, Some(DateError))
      case Some(d) =>
        if DayBefore(d.day, today) then DeadlineCheck(None, Some(PastError))
        else DeadlineCheck(Some(d), None)
  }

  /** The five messages are pairwise different. */
  lemma MessagesDistinct()
    ensures TitleError != DetailsError && TitleError != StatusError && TitleError != DateError && TitleError != PastError
    ensures DetailsError != StatusError && DetailsError != DateError && DetailsError != PastError
    ensures StatusError != DateError && StatusError != PastError
    ensures DateError != PastError
  {
    assert TitleError[0] == 't' && DetailsError[0] == 'd' && StatusError[0] == 's' && DateError[0] == 'd' && PastError[0] == 'd';
    assert DetailsError[2] == 't' && DateError[2] == 'a' && PastError[2] == 'a';
    assert DateError[9] == 'm' && PastError[9] == 'c';
  }

  /** The position of a message in the error list: title, details, status, then the deadline. */
  function Rank(m: string): nat {
    if m == TitleError then 0
    else if m == DetailsError then 1
    else if m == StatusError then 2
    else 3
  }

  /** Each message has its own rank, the deadline's two sharing the last. */
  lemma RankOfMessages()
    ensures Rank(TitleError) == 0 && Rank(DetailsError) == 1 && Rank(StatusError) == 2
    ensures Rank(DateError) == 3 && Rank(PastError) == 3
  {
    MessagesDistinct();
  }

  /** Messages in the order of their checks. */
  predicate RankSorted(errors: seq<string>) {
    forall i, j :: 0 <= i < j < |errors| ==> Rank(errors[i]) < Rank(errors[j])
  }

  /** Puts `m` in front of the later checks' messages when its check failed. */
  function Push(failed: bool, m: string, rest: seq<string>): (r: seq<string>)
    requires forall x :: x in rest ==> Rank(m) < Rank(x)
    ensures forall x :: x in r <==> (failed && x == m) || x in rest
    ensures |r| == |rest| + (if failed then 1 else 0)
    ensures RankSorted(rest) ==> RankSorted(r)
  {
    if failed then
      assert forall j :: 0 < j < |rest| + 1 ==> ([m] + rest)[j] == rest[j - 1];
      [m] + rest
    else rest
  }

  /**
    The error list: one message per failed check, in the order title, details,
    status, deadline, with none of the checks cut short by an earlier failure.
   */
  function CollectErrors(badTitle: bool, badDetails: bool, badStatus: bool, deadlineError: Option<string>): (errors: seq<string>)
    requires deadlineError.Some? ==> deadlineError.value in {DateError, PastError}
    ensures TitleError in errors <==> badTitle
    ensures DetailsError in errors <==> badDetails
    ensures StatusError in errors <==> badStatus
    ensures forall m :: m in {DateError, PastError} ==> (m in errors <==> deadlineError == Some(m))
    ensures errors == [] <==> !badTitle && !badDetails && !badStatus && deadlineError.None?
    ensures |errors| <= 4
    ensures forall m :: m in errors ==> m in {TitleError, DetailsError, StatusError, DateError, PastError}
    ensures forall i, j :: 0 <= i < j < |errors| ==> errors[i] != errors[j]
  {
    MessagesDistinct();
    RankOfMessages();
    var deadline := if deadlineError.Some? then [deadlineError.value] else [];
    var status := Push(badStatus, StatusError, deadline);
    var details := Push(badDetails, DetailsError, status);
    Push(badTitle, TitleError, details)
  }

  /** The messages come in the order of the checks: title, details, status, deadline. */
  lemma CollectErrorsInOrder(badTitle: bool, badDetails: bool, badStatus: bool, deadlineError: Option<string>)
    requires deadlineError.Some? ==> deadlineError.value in {DateError, PastError}
    ensures var errors := CollectErrors(badTitle, badDetails, badStatus, deadlineError);
            forall i, j :: 0 <= i < j < |errors| ==> Rank(errors[i]) < Rank(errors[j])
  {
    RankOfMessages();
    var deadline := if deadlineError.Some? then [deadlineError.value] else [];
    assert RankSorted(deadline);
    var status := Push(badStatus, StatusError, deadline);
    var details := Push(badDetails, DetailsError, status);
    assert RankSorted(Push(badTitle, TitleError, details));
  }

  /**
    `validateTaskInput(body)`: the cleaned fields are the trimmed and normalised
    inputs, and `ok` holds exactly when no strict check failed.
   */
  function ValidateTaskInput(body: Body, parse: string -> Option<Instant>, today: Day): (v: Validated)
    ensures v.ok <==> v.errors == []
    ensures |v.errors| <= 4
    ensures forall m :: m in v.errors ==> m in {TitleError, DetailsError, StatusError, DateError, PastError}
    ensures forall i, j :: 0 <= i < j < |v.errors| ==> v.errors[i] != v.errors[j]
    // strict fields
    ensures v.cleaned.title == Trim(Coalesce(body.title, ""))
    ensures TitleError in v.errors <==> !(2 <= |v.cleaned.title| <= 100)
    ensures v.cleaned.details == Trim(Coalesce(body.details, ""))
    ensures DetailsError in v.errors <==> !(2 <= |v.cleaned.details| <= 500)
    ensures v.cleaned.status == NormalizeStatus(body.status)
    ensures StatusError in v.errors <==> v.cleaned.status !in AllowedStatus
  {
    var title := Trim(Coalesce(body.title, ""));
    var details := Trim(Coalesce(body.details, ""));
    var status := NormalizeStatus(body.status);
    var dl := CheckDeadline(DeadlineText(body), parse, today);
    var errors := CollectErrors(
      title == "" || |title| < 2 || |title| > 100,
      details == "" || |details| < 2 || |details| > 500,
      status !in AllowedStatus,
      dl.error);
    Validated(
      |errors| == 0,
      errors,
      Cleaned(title, details, status, NormalizePriority(body.priority), NormalizeCategory(body.category), dl.deadline))
  }

  /**
    Priority and category are lenient: whatever the body says about them, the
    errors stay the same; the cleaned priority is always an allowed one (the
    given one when it is allowed, "medium" otherwise), and the cleaned category always has 2 to 40
    characters (the given one when it fits, "general" otherwise).
   */
  lemma ValidateLenientFields(body: Body, parse: string -> Option<Instant>, today: Day, priority: Option<string>, category: Option<string>)
    ensures ValidateTaskInput(body.(priority := priority, category := category), parse, today).errors
            == ValidateTaskInput(body, parse, today).errors
    ensures var v := ValidateTaskInput(body, parse, today);
            && v.cleaned.priority in AllowedPriority
            && (Lower(Trim(Coalesce(body.priority, "medium"))) in AllowedPriority
                ==> v.cleaned.priority == Lower(Trim(Coalesce(body.priority, "medium"))))
            && (Lower(Trim(Coalesce(body.priority, "medium"))) !in AllowedPriority
                ==> v.cleaned.priority == "medium")
            && 2 <= |v.cleaned.category| <= 40
            && (v.cleaned.category == Trim(Coalesce(body.category, "general")) || v.cleaned.category == "general")
            && (2 <= |Trim(Coalesce(body.category, "general"))| <= 40
                ==> v.cleaned.category == Trim(Coalesce(body.category, "general")))
  {
  }

  /**
    The 400 response lists the messages in the order of the checks: title,
    details, status, deadline.
   */
  lemma ValidateErrorsInOrder(body: Body, parse: string -> Option<Instant>, today: Day)
    ensures var errors := ValidateTaskInput(body, parse, today).errors;
            forall i, j :: 0 <= i < j < |errors| ==> Rank(errors[i]) < Rank(errors[j])
  {
    var title := Trim(Coalesce(body.title, ""));
    var details := Trim(Coalesce(body.details, ""));
    var status := NormalizeStatus(body.status);
    var dl := CheckDeadline(DeadlineText(body), parse, today);
    CollectErrorsInOrder(
      title == "" || |title| < 2 || |title| > 100,
      details == "" || |details| < 2 || |details| > 500,
      status !in AllowedStatus,
      dl.error);
  }

  /**
    The deadline rule: an empty deadline is no deadline and no error; an
    unparsable one raises exactly the invalid-date error; a parsed day before
    today raises exactly the past-deadline error; otherwise the parsed date is
    the cleaned deadline.
   */
  lemma ValidateDeadline(body: Body, parse: string -> Option<Instant>, today: Day)
    ensures var v := ValidateTaskInput(body, parse, today);
            DeadlineText(body) == "" ==>
              v.cleaned.deadline == None && DateError !in v.errors && PastError !in v.errors
    ensures var v := ValidateTaskInput(body, parse, today);
            DeadlineText(body) != "" && parse(DeadlineText(body)).None? ==>
              v.cleaned.deadline == None && DateError in v.errors && PastError !in v.errors
    ensures var v := ValidateTaskInput(body, parse, today);
            DeadlineText(body) != "" && parse(DeadlineText(body)).Some?
            && DayBefore(parse(DeadlineText(body)).value.day, today) ==>
              v.cleaned.deadline == None && PastError in v.errors && DateError !in v.errors
    ensures var v := ValidateTaskInput(body, parse, today);
            DeadlineText(body) != "" && parse(DeadlineText(body)).Some?
            && !DayBefore(parse(DeadlineText(body)).value.day, today) ==>
              v.cleaned.deadline == parse(DeadlineText(body)) && PastError !in v.errors && DateError !in v.errors
  {
  }

  /** A body that submits a cleaned record again, with the same deadline text. */
  function Resubmit(c: Cleaned, deadline: Option<string>): Body {
    Body(Some(c.title), Some(c.details), Some(c.status), Some(c.priority), Some(c.category), deadline)
  }

  /** The defaults and allowed words have no surrounding white space and no upper-case letters. */
  lemma PlainWord(w: string)
    requires w in AllowedPriority || w in AllowedStatus || w == "general"
    ensures Trimmed(w)
    ensures forall i :: 0 <= i < |w| ==> !IsUpper(w[i])
  {
    if w == "low" {
    } else if w == "medium" {
    } else if w == "high" {
    } else if w == "todo" {
    } else if w == "inprogress" {
    } else if w == "done" {
    } else {
      assert w == "general";
    }
  }

  /** A normalised priority is its own normal form. */
  lemma PriorityStable(raw: Option<string>)
    ensures NormalizePriority(Some(NormalizePriority(raw))) == NormalizePriority(raw)
  {
    var p := NormalizePriority(raw);
    PlainWord(p);
    TrimOfTrimmed(p);
    LowerOfLower(p);
  }

  /** A normalised category is its own normal form. */
  lemma CategoryStable(raw: Option<string>)
    ensures NormalizeCategory(Some(NormalizeCategory(raw))) == NormalizeCategory(raw)
  {
    var c := NormalizeCategory(raw);
    PlainWord("general");
    TrimOfTrimmed(c);
  }

  /** A normalised status is its own normal form. */
  lemma {:induction false} StatusStable(raw: Option<string>)
    ensures NormalizeStatus(Some(NormalizeStatus(raw))) == NormalizeStatus(raw)
  {
    var lowered := Lower(Trim(Coalesce(raw, "todo")));
    var s := RemoveSpaces(lowered);
    assert Trimmed(s);
    TrimOfTrimmed(s);
    forall i | 0 <= i < |s|
      ensures !IsUpper(s[i])
    {
      assert s[i] in lowered;
    }
    LowerOfLower(s);
    RemoveSpacesOfNoSpace(s);
  }

  /** Validation sees a body only through the normal forms of its fields. */
  lemma ValidateDependsOnNormalForms(b1: Body, b2: Body, parse: string -> Option<Instant>, today: Day)
    requires Trim(Coalesce(b1.title, "")) == Trim(Coalesce(b2.title, ""))
    requires Trim(Coalesce(b1.details, "")) == Trim(Coalesce(b2.details, ""))
    requires NormalizeStatus(b1.status) == NormalizeStatus(b2.status)
    requires NormalizePriority(b1.priority) == NormalizePriority(b2.priority)
    requires NormalizeCategory(b1.category) == NormalizeCategory(b2.category)
    requires DeadlineText(b1) == DeadlineText(b2)
    ensures ValidateTaskInput(b1, parse, today) == ValidateTaskInput(b2, parse, today)
  {
  }

  /**
    Validation is stable under resubmission: validating the cleaned text fields
    again, together with the original deadline text, the same date parser and
    the same day, gives back the same cleaned record and the same errors.
   */
  lemma {:induction false} RevalidateIsStable(body: Body, parse: string -> Option<Instant>, today: Day)
    ensures var v := ValidateTaskInput(body, parse, today);
            ValidateTaskInput(Resubmit(v.cleaned, body.deadline), parse, today) == v
  {
    var v := ValidateTaskInput(body, parse, today);
    var again := Resubmit(v.cleaned, body.deadline);
    TrimIdempotent(Coalesce(body.title, ""));
    assert Trim(Coalesce(again.title, "")) == Trim(Coalesce(body.title, ""));
    TrimIdempotent(Coalesce(body.details, ""));
    assert Trim(Coalesce(again.details, "")) == Trim(Coalesce(body.details, ""));
    StatusStable(body.status);
    assert NormalizeStatus(again.status) == NormalizeStatus(body.status);
    PriorityStable(body.priority);
    assert NormalizePriority(again.priority) == NormalizePriority(body.priority);
    CategoryStable(body.category);
    assert NormalizeCategory(again.category) == NormalizeCategory(body.category);
    ValidateDependsOnNormalForms(again, body, parse, today);
  }

  lemma LowerInProgress()
    ensures Lower("In Progress") == "in progress"
  {
    var raw := "In Progress";
    assert IsUpper(raw[0]) && IsUpper(raw[3]);
    assert forall i :: 0 <= i < |raw| && i != 0 && i != 3 ==> !IsUpper(raw[i]);
  }

  /** Removing white space from two words joined by one space joins them. */
  lemma DropOneSpace(a: string, b: string)
    requires NoSpace(a) && NoSpace(b)
    ensures RemoveSpaces(a + " " + b) == a + b
  {
    var sp := " ";
    assert IsSpace(sp[0]) && sp[1..] == [];
    assert RemoveSpaces(sp) == [];
    RemoveSpacesConcat(a, sp);
    RemoveSpacesOfNoSpace(a);
    assert RemoveSpaces(a + sp) == a;
    RemoveSpacesConcat(a + sp, b);
    RemoveSpacesOfNoSpace(b);
  }

  lemma RemoveSpacesInProgress()
    ensures RemoveSpaces("in progress") == "inprogress"
  {
    var a, b := "in", "progress";
    assert NoSpace(a) && NoSpace(b);
    DropOneSpace(a, b);
    assert a + " " + b == "in progress";
    assert a + b == "inprogress";
  }

  /** "In Progress" is accepted as the status "inprogress". */
  lemma StatusInProgress()
    ensures NormalizeStatus(Some("In Progress")) == "inprogress"
  {
    var raw := "In Progress";
    assert !IsSpace(raw[0]) && !IsSpace(raw[|raw| - 1]);
    TrimOfTrimmed(raw);
    LowerInProgress();
    RemoveSpacesInProgress();
  }

  /** A two-character title is long enough; one character and 101 characters are not. */
  lemma TitleBounds(parse: string -> Option<Instant>, today: Day, body: Body, t: string)
    requires Trimmed(t)
    ensures |t| == 2 ==> TitleError !in ValidateTaskInput(body.(title := Some(t)), parse, today).errors
    ensures |t| == 1 || |t| == 101 ==> TitleError in ValidateTaskInput(body.(title := Some(t)), parse, today).errors
  {
    TrimOfTrimmed(t);
    var v := ValidateTaskInput(body.(title := Some(t)), parse, today);
    assert v.cleaned.title == t;
  }

  /** A deadline whose parsed local day is today is accepted; one whose local day is earlier is rejected as past. */
  lemma DeadlineToday(body: Body, parse: string -> Option<Instant>, today: Day)
    requires DeadlineText(body) != ""
    requires parse(DeadlineText(body)).Some?
    ensures parse(DeadlineText(body)).value.day == today ==>
              ValidateTaskInput(body, parse, today).cleaned.deadline == parse(DeadlineText(body))
    ensures DayBefore(parse(DeadlineText(body)).value.day, today) ==>
              PastError in ValidateTaskInput(body, parse, today).errors
  {
    ValidateDeadline(body, parse, today);
  }
}
